=== FILE: README.md ===
# Pastelicias storefront — a Dafny model of its core

Pastelicias is the single-page storefront of a bakery. Customers browse a
catalog of sweets, savouries and promotional boxes. They pick a quantity tier
of a product, customise it (flavour, filling, colour and a short message) and
collect the lines in a cart. Staff use an administration panel to edit the
catalog and the option lists, and a dashboard summarises the event log.

This project models the logic of that core as pure Dafny functions over
immutable data. Each module follows one source file:

| module | file | what it holds |
|---|---|---|
| `Base` | — | `Option`, order-preserving `Filter`, the `reduce` sum `SumBy` |
| `Text` | — | JavaScript white space, `trim`, `join`, `replace(/\s/g, …)`, decimal rendering of integers |
| `Types` | `types.ts` | products, tiers, cart lines, option lists, roles, events, order details |
| `OrderedMap` | — | the JavaScript `Map` as an insertion-ordered association list |
| `Constants` | `constants.ts` | the 25 seed products and the three option lists, with their invariants |
| `Pricing` | `components/CartSidebar.tsx` | subtotal, delivery fee, total, full or half online payment |
| `Store` | `App.tsx` | id generator, cart store, catalog store, hash router, overlay flags |
| `Modal` | `components/ProductModal.tsx` | the product dialog: defaults, field updates, tier radio group |
| `Admin` | `components/AdminPage.tsx` | product form, tier editor, add-or-update submit, option editor |
| `Catalog` | `components/CatalogPage.tsx` | the promotions, sweets and savouries sections |
| `Header` | `components/Header.tsx` | active link, Admin link by role, login link, cart badge |
| `Analytics` | `components/AnalyticsDashboard.tsx` | time window, sales totals, per-product counts, top product, top three, daily chart |
| `Confirmation` | `components/ConfirmationPage.tsx` | the downloadable order summary and its file name |

The model's conventions:

- Money is an integer number of pesos.
- Clock readings (`Date.now()`, `new Date()`, `getDate()`), `Number(…)` and `toLocaleString('es-CL')` are parameters of the functions that use them.
- React state setters are functions from the old state to the new one.
- JavaScript truthiness is written out where the code relies on it. Examples: `isFeatured?` absent reads as false, `productId` 0 reads as absent, and `total || 0` reads a missing total as 0.

## Model

| member | source | states |
|---|---|---|
| `Base.Filter` | App.tsx:63 | `filter` keeps exactly the elements satisfying the predicate, each from the input |
| `Base.FilterAppend` | App.tsx:80 | filtering a concatenation is concatenating the filtered parts, so relative order is kept |
| `Base.FilterCopies` | App.tsx:80 | filtering keeps every copy of a kept value and no copy of a dropped one |
| `Base.SumByPartition` | components/CartSidebar.tsx:46-49 | a `reduce` sum splits exactly over a predicate and its complement |
| `Text.Trim` | components/AdminPage.tsx:96 | the trimmed text is the slice of the input between an all-blank prefix and an all-blank suffix, has no white space at either end, and is empty exactly when the input is blank |
| `Text.TrimIdempotent` | components/AdminPage.tsx:99 | trimming an already trimmed option changes nothing |
| `Text.ReplaceWhitespace` | components/ConfirmationPage.tsx:62 | each white-space character becomes the replacement, every other character stays in place |
| `Text.JoinLength` | components/ConfirmationPage.tsx:26 | `join(', ')` is as long as the parts plus one separator between neighbours |
| `Text.JoinAppend` | components/ConfirmationPage.tsx:26 | joining one more selection appends the separator and that selection to the joined text |
| `Text.DecimalRoundTrip` | App.tsx:54 | the decimal digits of a number read back as that number |
| `Text.IntToDecimalInjective` | App.tsx:54 | distinct integers render as distinct strings in a template literal |
| `Types.FindProduct` | components/AnalyticsDashboard.tsx:54 | a lookup finds a product exactly when one has that id, and what it finds has that id |
| `Constants.SeedIds` | constants.ts:4-375 | the seed ids are pairwise distinct, at most 27, and 27 occurs |
| `Constants.IncreasingIdsAreDistinct` | constants.ts:4-375 | ids increasing between neighbours are increasing and distinct across the whole list |
| `Constants.SeedPricing` | constants.ts:4-375 | every seed product has tiers, a starting price equal to its first tier's, strictly increasing quantities and prices, prices in steps of 500, and distinct quantities |
| `Constants.IncreasingQuantitiesAreDistinct` | constants.ts:4-375 | tier quantities increasing between neighbours are pairwise distinct |
| `Constants.SeedPromotions` | constants.ts:299-302 | both build-your-own boxes list distinct existing ids other than their own with a cap of at most the candidate count; the sweet box draws only on sweets and the savoury box only on savouries |
| `Constants.BoxOverPositions` | constants.ts:317-320 | a box whose candidates are distinct ids of one block of same-category products satisfies the candidate invariant |
| `Constants.FindDistinct` | constants.ts:4-375 | with distinct ids, looking up the id of a position finds that product |
| `Constants.SeedOptions` | constants.ts:377-381 | each seed option list is non-empty, duplicate-free and starts with "Surtidos" |
| `Pricing.ShippingCost` | components/CartSidebar.tsx:16-44 | delivery costs the flat 5000 fee, pickup costs nothing |
| `Pricing.Subtotal` | components/CartSidebar.tsx:46-49 | the subtotal of an empty cart is 0 and is non-negative when prices are |
| `Pricing.SubtotalAppend` | components/CartSidebar.tsx:47 | appending a line raises the subtotal by that line's tier price |
| `Pricing.ComputeSubtotal` | components/CartSidebar.tsx:46-49 | the left-to-right loop computes the recursive subtotal |
| `Pricing.TotalByDelivery` | components/CartSidebar.tsx:51 | pickup totals the subtotal, delivery the subtotal plus 5000 |
| `Pricing.Total` | components/CartSidebar.tsx:51 | pickup totals the subtotal, delivery adds the 5000 fee, an empty cart still owes the fee, and with non-negative prices the total is at least the fee |
| `Pricing.TotalAppend` | components/CartSidebar.tsx:51 | adding a line raises the total by exactly that line's tier price, for either delivery choice |
| `Pricing.AmountToPayOnline` | components/CartSidebar.tsx:53-56 | full payment charges the total, half payment an amount that doubled gives the total |
| `Pricing.PendingAmount` | components/CartSidebar.tsx:153-156 | nothing is left pending under full payment; under half payment the pending amount doubled gives the total |
| `Pricing.SplitIsExact` | components/CartSidebar.tsx:53-56 | the online and pending amounts add up to the total and are equal under half payment |
| `Pricing.OnlineAmountBounded` | components/CartSidebar.tsx:53-56 | with non-negative prices the online amount lies between 0 and the total |
| `Pricing.HalfSplitIsWhole` | components/CartSidebar.tsx:54 | when tier prices are multiples of 500 the total is even and its half is whole |
| `Pricing.ConfirmOrder` | components/CartSidebar.tsx:58-60 | confirming hands over the cart unchanged with subtotal plus shipping |
| `Pricing.SidebarBadgeShown` | components/CartSidebar.tsx:81 | the sidebar's badge shows exactly when the cart has lines |
| `Store.MaxId` | App.tsx:14 | the seed counter is non-negative, bounds every id, and is 0 or an id of the list |
| `Store.InitialCounter` | App.tsx:14 | the generator starts at 27 |
| `Store.GenerateUniqueId` | App.tsx:15 | each issued id exceeds the counter and becomes the new counter |
| `Store.GenerateIds` | App.tsx:15 | successive ids are strictly increasing and above the starting counter |
| `Store.GeneratedIdsAreFresh` | App.tsx:14-15 | every generated id is above every seed id |
| `Store.CartItemIdsDifferInTime` | App.tsx:54 | lines for the same product and tier made at different instants get different ids |
| `Store.AddToCart` | App.tsx:52-57 | one line with the chosen product, tier and customizations is appended and earlier lines are untouched |
| `Store.CartItemId` | App.tsx:54 | a line id opens with the product id and a hyphen and closes with a hyphen and the creation instant |
| `Store.RemoveFromCart` | App.tsx:62-63 | no line with the id survives, every other line does, an absent id changes nothing and a present one shortens the cart |
| `Store.RemoveFromConcatenation` | App.tsx:63 | removal acts on each part of a split cart separately |
| `Store.AddThenRemove` | App.tsx:52-63 | adding a line with a fresh id and removing that id restores the cart |
| `Store.RemoveSplitsSubtotal` | App.tsx:62-63 | what stays plus what was removed is the whole subtotal |
| `Store.CartItemCount` | App.tsx:66-68 | the badge count is 0 for an empty cart and non-negative for non-negative quantities |
| `Store.CountAfterAdd` | App.tsx:66-68 | adding a line raises the count by its tier's quantity, not by one |
| `Store.FeaturedProducts` | App.tsx:70 | the featured view holds exactly the featured products of the catalog |
| `Store.FeaturedOfConcatenation` | App.tsx:70 | the featured view of a concatenation is the concatenation of the featured views |
| `Store.AddProduct` | App.tsx:73-75 | the new product goes at the end with an id above the old counter |
| `Store.AddProductKeepsInvariant` | App.tsx:73-75 | adding keeps ids distinct and at most the counter |
| `Store.UpdateProduct` | App.tsx:76-78 | every product with the updated id is replaced and all others keep their place |
| `Store.UpdateProductKeepsInvariant` | App.tsx:76-78 | updating keeps the list of ids, the catalog invariant, and is idempotent |
| `Store.DeleteProduct` | App.tsx:79-81 | no product with the id survives; every other product keeps all its copies; an absent id changes nothing; the list never grows |
| `Store.DeleteFromConcatenation` | App.tsx:79-81 | deleting acts on each part of a split catalog separately, so the survivors keep their relative order |
| `Store.DeleteOne` | App.tsx:79-81 | on a single product, deletion drops it exactly when it carries the id |
| `Store.DeleteProductKeepsInvariant` | App.tsx:79-81 | deleting keeps the catalog invariant |
| `Store.SubsequenceKeepsDistinct` | App.tsx:80 | a filtered catalog keeps distinct ids |
| `Store.AddThenDeleteProduct` | App.tsx:73-81 | adding a product and deleting its fresh id restores the catalog |
| `Store.PageFromHash` | App.tsx:24-28 | an empty hash reads as "#", any other hash as itself |
| `Store.RenderPage` | App.tsx:86-106 | the three named routes select their pages and every other hash the home page |
| `Store.InitialState` | App.tsx:14-24 | the session starts with the seed catalog, an empty cart and the catalog invariant |
| `Store.OnHashChange` | App.tsx:27-30 | navigation follows the hash, closes the menu and keeps catalog and cart |
| `Store.ScrollLocked` | App.tsx:38-42 | scrolling is locked exactly while the cart, the dialog or the menu is open |
| `Store.HandleAddToCart` | App.tsx:52-60 | adding closes the dialog, opens the cart and leaves the catalog alone |
| `Store.ApplyCatalogAction` | App.tsx:73-81 | admin actions leave the cart and options alone and never lower the counter |
| `Store.CatalogActionsKeepInvariant` | App.tsx:73-81 | every admin action keeps ids distinct and at most the counter |
| `Modal.FirstOrBlank` | components/ProductModal.tsx:16-18 | the first entry of a non-empty list; the empty text for an empty list |
| `Modal.OpenModal` | components/ProductModal.tsx:14-20 | the dialog opens on the first tier with each list's first entry (the empty text for an empty list) and a blank message, and cannot open without tiers |
| `Modal.ClampToMaxLength` | components/ProductModal.tsx:77 | the accepted message is a prefix of the typed one of at most the limit, and the whole text when it fits |
| `Modal.ChangeCustomization` | components/ProductModal.tsx:22-25 | a change writes only the named field, the message clipped to 30 characters |
| `Modal.ChangeIsFieldWise` | components/ProductModal.tsx:22-25 | reading back gives the new value in the named field and the old value in every other |
| `Modal.SelectTier` | components/ProductModal.tsx:59 | clicking a tier selects it and checks its radio button, keeping product and customizations |
| `Modal.OpenIsValid` | components/ProductModal.tsx:14-20 | a freshly opened dialog selects one of the product's tiers and holds a fitting message |
| `Modal.EventsKeepValid` | components/ProductModal.tsx:22-59 | customization changes and tier clicks keep the dialog valid |
| `Modal.ExactlyOneChecked` | components/ProductModal.tsx:51-59 | with distinct tier quantities exactly one radio button is checked |
| `Modal.Submit` | components/ProductModal.tsx:27-30 | submitting hands over the product, selected tier and customizations as they stand |
| `Modal.SubmitReachesCart` | components/ProductModal.tsx:27-30 | submitting ends with exactly those choices as the cart's last line, the dialog closed and the cart open |
| `Modal.SeedProductsOpen` | components/ProductModal.tsx:14-20 | every seed product opens with "Surtidos" in all three lists and exactly one checkable tier |
| `Admin.EmptyProduct` | components/AdminPage.tsx:15-25 | the blank form is an in-stock, unfeatured sweet with empty texts and one zero tier |
| `Admin.NewProductForm` | components/AdminPage.tsx:35-45 | submitting the blank form untouched adds the blank product |
| `Admin.EditProductForm` | components/AdminPage.tsx:35-45 | submitting the form opened on a product untouched is an update to that very product |
| `Admin.EditUnchangedIsNoOp` | App.tsx:76-78 | saving an unchanged product of a catalog with distinct ids leaves the catalog as it was |
| `Admin.HandleTierChange` | components/AdminPage.tsx:58-62 | only the edited tier changes, and in only the named field; numeric fields go through `Number` |
| `Admin.AddTier` | components/AdminPage.tsx:65-70 | one blank tier is appended and the others are kept |
| `Admin.DropIndex` | components/AdminPage.tsx:72-77 | removing an in-range position shortens the tiers by one; an out-of-range one changes nothing |
| `Admin.DropIndexIsSplice` | components/AdminPage.tsx:75 | removing a position glues the tiers before and after it |
| `Admin.AddThenRemoveTier` | components/AdminPage.tsx:65-77 | adding a tier and removing the last one restores the tiers |
| `Admin.HandleSubmit` | components/AdminPage.tsx:79-86 | a form with an id updates that product, one without adds a product |
| `Admin.SubmitEffect` | components/AdminPage.tsx:79-86 | an edit keeps the ids in place, an addition appends exactly the form's product; both keep the catalog invariant |
| `Admin.HandleAddOption` | components/AdminPage.tsx:95-103 | a blank input changes nothing; otherwise the trimmed text is appended to that list and the input cleared, other groups untouched |
| `Admin.HandleDeleteOption` | components/AdminPage.tsx:105-111 | every copy of the option leaves its list, every other entry keeps all its copies in the original order, other lists are untouched |
| `Admin.DeleteOptionFromConcatenation` | components/AdminPage.tsx:105-111 | deletion acts on each part of a split list separately, so the survivors keep their relative order |
| `Admin.AddThenDeleteOption` | components/AdminPage.tsx:95-111 | adding a new option and deleting it restores the lists |
| `Admin.DeleteOptionIdempotent` | components/AdminPage.tsx:105-111 | deleting the same option twice removes nothing more |
| `Catalog.Section` | components/CatalogPage.tsx:36-38 | a section holds exactly the catalog's products of its category, and is never longer than the catalog |
| `Catalog.SectionOfConcatenation` | components/CatalogPage.tsx:36-38 | the section of a split catalog is the sections of its parts in turn, so the catalog order is kept |
| `Catalog.SectionOne` | components/CatalogPage.tsx:36-38 | on a single product, the section keeps it exactly when it is of that category |
| `Catalog.SectionCopies` | components/CatalogPage.tsx:36-38 | a section keeps every copy of each product of its category and no copy of any other |
| `Catalog.CatalogSections` | components/CatalogPage.tsx:36-38 | the three sections together are as large as the catalog |
| `Catalog.SectionSizes` | components/CatalogPage.tsx:36-38 | section sizes add up to the catalog size |
| `Catalog.ExactlyOneSection` | types.ts:10 | each product is in the section of its category and in no other |
| `Catalog.CategorySection` | components/CatalogPage.tsx:17-20 | an empty section renders nothing; a non-empty one renders its title and products |
| `Catalog.Assemble` | components/CatalogPage.tsx:42-44 | the three titled sections one after the other: each shown list is non-empty and sits under its own heading, and a heading is shown exactly when its list is non-empty |
| `Catalog.CatalogPage` | components/CatalogPage.tsx:35-46 | at most three sections, none empty; each shown section sits under a category's heading and holds exactly that category's products; a category's heading is shown exactly when it has products |
| `Catalog.PageShowsEveryProduct` | components/CatalogPage.tsx:35-46 | the page shows one card per product, and is empty exactly when the catalog is |
| `Catalog.AssembleCards` | components/CatalogPage.tsx:17-20 | the assembled page holds one card per listed product, and is empty exactly when all three lists are |
| `Catalog.SectionOrder` | components/CatalogPage.tsx:42-44 | promotions come before sweets, which come before savouries |
| `Catalog.SeedSections` | constants.ts:4-375 | the seed catalog shows eight promotions, ten sweets and seven savouries |
| `Header.NavLinks` | components/Header.tsx:42-47 | home, catalog and contact always, and the Admin link exactly for administrators and super-administrators |
| `Header.IsActive` | components/Header.tsx:23-24 | a link is lit on its own page, and a lit link leads to the page the router shows |
| `Header.ActiveLinkMatchesRoute` | components/Header.tsx:23-24 | at most one link is highlighted; the home link is lit exactly on `#` and `#/`; any other hash shown as the home page lights no link; a highlighted link names the page the router renders |
| `Header.LoginOrAdmin` | components/Header.tsx:61 | a visitor sees the login link exactly when the Admin link is not offered |
| `Header.BadgeMatchesCart` | components/Header.tsx:83 | with positive tier quantities the header badge shows exactly when the cart has lines |
| `Header.ZeroQuantityHidesBadge` | components/Header.tsx:83 | a cart whose lines all carry quantity-0 tiers, as the blank admin tier does, shows no header badge however many lines it holds |
| `OrderedMap.Get` | components/AnalyticsDashboard.tsx:54 | `get` finds a value exactly for the keys present |
| `OrderedMap.Set` | components/AnalyticsDashboard.tsx:44 | `set` stores the value for its key, leaves every other key's value alone, and appends the key only when new |
| `OrderedMap.SetKeepsDistinct` | components/AnalyticsDashboard.tsx:44 | `set` never duplicates a key |
| `OrderedMap.AddTo` | components/AnalyticsDashboard.tsx:47 | `set(k, (get(k) \|\| 0) + d)` raises only `k`'s value by `d` |
| `OrderedMap.AddToSum` | components/AnalyticsDashboard.tsx:102 | adding `d` to one key adds `d` to the sum of the values |
| `OrderedMap.GetAt` | components/AnalyticsDashboard.tsx:69-75 | with distinct keys an entry's value is what `get` returns for its key |
| `Analytics.FilterByTime` | components/AnalyticsDashboard.tsx:17-32 | the window keeps exactly the events from its threshold on |
| `Analytics.FilterByTimeKeepsOrder` | components/AnalyticsDashboard.tsx:22-31 | the window keeps log order |
| `Analytics.TodayWithinMonth` | components/AnalyticsDashboard.tsx:19-28 | every event of today's window is in the month's window |
| `Analytics.TotalSales` | components/AnalyticsDashboard.tsx:36 | the sales figure is non-negative when order totals are |
| `Analytics.TotalOrders` | components/AnalyticsDashboard.tsx:37 | the order count is at most the number of events |
| `Analytics.TotalsByDirectPass` | components/AnalyticsDashboard.tsx:35-37 | the totals equal a single pass over the log that ignores non-orders |
| `Analytics.CountEvents` | components/AnalyticsDashboard.tsx:41-48 | the nested loops count exactly the contributed ids, in order |
| `Analytics.CountEventIsCountIds` | components/AnalyticsDashboard.tsx:42-47 | one event's body counts exactly that event's contribution |
| `Analytics.CountIdsMeaning` | components/AnalyticsDashboard.tsx:44-47 | counting adds each id's occurrences to its value and makes exactly the counted ids present |
| `Analytics.CountIdsKeyOrder` | components/AnalyticsDashboard.tsx:40-48 | the Map keeps insertion order: keys already present stay in front, and new ids follow in the order of their first occurrence |
| `Analytics.Counts` | components/AnalyticsDashboard.tsx:40-51 | the count map has distinct keys, exactly the contributed ids, each with its number of contributions, is empty exactly when nothing was contributed, and lists its keys in the order each id was first contributed |
| `Analytics.OrderCountsLines` | components/AnalyticsDashboard.tsx:42-45 | an order counts once per line item, whatever the tier's quantity, and never for views or cart additions |
| `Analytics.TopIndex` | components/AnalyticsDashboard.tsx:53 | the `reduce` picks a largest count, the last of tied ones |
| `Analytics.ProductMap` | components/AnalyticsDashboard.tsx:15 | the map has one entry per product id, each a product of the catalog with that id |
| `Analytics.ProductMapFindsProduct` | components/AnalyticsDashboard.tsx:15 | with distinct ids the map agrees with a front-to-back search |
| `Analytics.ProductName` | components/AnalyticsDashboard.tsx:54 | the fallback for an id no product has; with distinct ids, the product's name, or the fallback when that name is empty; any other result is the name of a product with that id |
| `Analytics.TopIndexLastSeen` | components/AnalyticsDashboard.tsx:53 | of ids counted as often as the reduction's pick, none was first contributed later than it |
| `Analytics.LaterTieSeenLater` | components/AnalyticsDashboard.tsx:53 | with keys in first-seen order, an entry tying the pick sits no later in the Map, so it was seen no later |
| `Analytics.TopProductId` | components/AnalyticsDashboard.tsx:51-53 | there is no top product exactly when nothing was counted; otherwise it was counted, no id was counted more often, and of ids counted equally often it is the one first contributed latest (the last-inserted Map key wins a tie) |
| `Analytics.TopProductName` | components/AnalyticsDashboard.tsx:51-54 | "N/A" when nothing was counted; otherwise the name looked up for the top id with the "Producto Desconocido" fallback, which with distinct ids is the top product's own name whenever it has one |
| `Analytics.InsertByCount` | components/AnalyticsDashboard.tsx:70 | insertion adds exactly the new entry: the result is the old entries plus it, as a multiset |
| `Analytics.InsertKeepsSorted` | components/AnalyticsDashboard.tsx:70 | insertion keeps counts non-increasing |
| `Analytics.SortByCount` | components/AnalyticsDashboard.tsx:70 | the sort is a permutation with non-increasing counts |
| `Analytics.TopThreeEntries` | components/AnalyticsDashboard.tsx:69-71 | the first three (fewer when fewer) entries are sorted, come from the counts, and no left-out entry exceeds the last |
| `Analytics.TopThree` | components/AnalyticsDashboard.tsx:69-75 | at most three rows, as many as counted products allow, in non-increasing count; each row carries its top entry's count and the name looked up for its id with the "Desconocido" fallback |
| `Analytics.TopThreeMeaning` | components/AnalyticsDashboard.tsx:57-75 | each row shows a contributed product with its true count, and no product left out was counted more often than the last row |
| `Analytics.InitialBuckets` | components/AnalyticsDashboard.tsx:94-96 | one zero bucket per day of the month, in day order |
| `Analytics.SalesChart` | components/AnalyticsDashboard.tsx:89-108 | the chart has at least one bucket per day of the month |
| `Analytics.ChartDays` | components/AnalyticsDashboard.tsx:94-103 | when every order falls within the month the buckets are exactly days 1 to n, in order |
| `Analytics.AddSalesMeaning` | components/AnalyticsDashboard.tsx:98-103 | each bucket grows by its day's order totals and the sum of buckets by all the totals |
| `Analytics.ChartMatchesSales` | components/AnalyticsDashboard.tsx:89-108 | the chart adds up to the sales figure and each day's bar is that day's order totals |
| `Analytics.MaxValue` | components/AnalyticsDashboard.tsx:110 | the maximum bounds every bar and is one of them |
| `Analytics.ChartMaxValue` | components/AnalyticsDashboard.tsx:110-114 | the scale is never 0 and bounds every bar; it is the tallest bar's value, or 1 when that value is 0 (a chart of negative totals scales to its largest, negative, total) |
| `Confirmation.RenderAppend` | components/ConfirmationPage.tsx:9-40 | the text of concatenated line groups is the concatenation of their texts |
| `Confirmation.OrderSummaryText` | components/ConfirmationPage.tsx:9-40 | the summary opens with the title and its rule and closes with the line of the amount to pay |
| `Confirmation.SummaryStartsWithTitle` | components/ConfirmationPage.tsx:10-11 | the summary opens with the title line and the rule under it |
| `Confirmation.SummaryEndsWithTotal` | components/ConfirmationPage.tsx:37 | the rendered summary closes with the amount-to-pay line |
| `Confirmation.MethodLine` | components/ConfirmationPage.tsx:16 | the method line names store pickup or home delivery |
| `Confirmation.InstructionsLine` | components/ConfirmationPage.tsx:18-20 | an instructions line appears exactly when instructions were written, and carries them |
| `Confirmation.ItemTitles` | components/ConfirmationPage.tsx:24 | one "* name (label)" title per cart line |
| `Confirmation.OneTitlePerItem` | components/ConfirmationPage.tsx:22-32 | the summary's product title lines are exactly one per cart line, in cart order |
| `Confirmation.SelectionLine` | components/ConfirmationPage.tsx:25-27 | a line's block has a selection line exactly when sub-products were chosen, joined by ", " |
| `Confirmation.MessageLine` | components/ConfirmationPage.tsx:28-30 | a line's block has a quoted message line exactly when the message is non-empty |
| `Confirmation.DownloadFilename` | components/ConfirmationPage.tsx:62 | the file name has the fixed prefix and suffix, is 23 characters longer than the name, and contains no white space |
| `Confirmation.FilenameKeepsName` | components/ConfirmationPage.tsx:62 | each non-blank character of the name keeps its place and each blank one becomes '_' |

## Left out

- DOM and browser plumbing is not modelled: focus handling, the Escape key, overlay click handlers, `window.confirm` before a deletion, and the Blob/anchor download mechanics. The model keeps the decisions those handlers take.
- Clocks are parameters: `Date.now()`, `new Date()`, the start of today and of the month, the days in the month, and `getDate()`. The sales chart requires 28 to 31 days, which any calendar month has.
- `Number(…)` and `toLocaleString('es-CL')` are parameters. Their digit grouping and parsing of non-numeric text are not modelled.
- Pricing.AmountToPayOnline: `total / 2` is a JavaScript floating-point division, modelled as exact real division. Rounding of odd totals is not modelled.
- Presentation-only files are outside the core: HomePage, ContactPage, ProductCard, the icons, the Tailwind and Vite configuration and the logo asset.
- LoginScreen's simulated role choice is not modelled; the role is a parameter of the header.
- App.tsx passes CartSidebar neither `onConfirmOrder` nor `cartItemCount`, and passes Header no role. The model follows each component's own contract, not these missing props.
- The admin form's generic `handleFormChange` (AdminPage.tsx:47-56) is not modelled. It writes any named field as raw text or a checkbox flag, and the model keeps `ProductInfo` typed.
- The build-your-own box selector is not modelled: no core file shows its interface. The candidate lists are checked as data in `Constants.SeedPromotions`.
- Admin.HandleTierChange: requires the index to be in range. The editor only fires it for rendered rows, and JavaScript would otherwise create a sparse entry.
- Modal.FirstOrBlank: an empty option list gives `list[0] === undefined` in the source, which the model reads as the empty text. No consumer tells the two apart: the confirmation text never prints the flavour, filling or colour.
- Modal.OpenModal: returns nothing for a product without tiers. The source would throw on render, when the submit button reads `selectedTier.price` (components/ProductModal.tsx:83) of an undefined tier; the tier list itself renders no rows.
- The tier field `label` is called `labelText`, because `label` is a Dafny keyword.
- The sales chart keys days as integers where the source keys them by `i.toString()`. Decimal rendering is injective, so the buckets are the same.
- Analytics.SortByCount: stability under equal counts (a property of JavaScript's `sort`) is implemented but not stated as a contract. Only order and permutation are proved.
- Store.CartItemCount: JavaScript numbers are floating point, and the count is an unbounded integer with no overflow.

=== FILE: admin.dfy ===
/**
 * The administration panel (components/AdminPage.tsx): the blank product
 * form, the price-tier editor, the add-or-update choice on submit, and the
 * editor of the global flavour, filling and colour lists.
 *
 * `Number(value)` on a numeric field is the parameter `toNumber`.
 */
module Admin {
  import opened Base
  import opened Text
  import opened Types
  import Store

  // ---------------------------------------------------------------------------
  // The product form

  /** The tier `addTier` appends and the blank form starts with. */
  const BlankTier: Tier := Tier(0, 0, "")

  /** The blank form: one zero tier, a sweet, in stock and not featured. */
  function EmptyProduct(): (r: ProductInfo)
    ensures r.priceTiers == [Tier(0, 0, "")]
    ensures r.category == Dulce && r.inStock && r.isFeatured == Some(false)
    ensures r.name == "" && r.description == "" && r.longDescription == "" && r.price == 0
    ensures r.selectableProducts == None
  {
    ProductInfo("", "", "", 0, "https://picsum.photos/400/300", true, Dulce, Some(false), [BlankTier], None)
  }

  /** The form state: a product being edited carries its id, a new one does not (`'id' in formState`). */
  datatype ProductForm = ProductForm(id: Option<int>, info: ProductInfo)

  /** Opening the form for a new product: submitting it untouched adds a blank product. */
  function NewProductForm(): (r: ProductForm)
    ensures HandleSubmit(r) == Store.AddAction(EmptyProduct())
  {
    ProductForm(None, EmptyProduct())
  }

  /** Opening the form on an existing product: submitting it untouched updates that very product. */
  function EditProductForm(p: Product): (r: ProductForm)
    ensures HandleSubmit(r) == Store.UpdateAction(p)
  {
    ProductForm(Some(p.id), p.info)
  }

  /** Editing a product of a well-formed catalog and saving it unchanged leaves the catalog as it was. */
  lemma {:induction false} EditUnchangedIsNoOp(products: seq<Product>, i: int)
    requires DistinctIds(products) && 0 <= i < |products|
    ensures Store.UpdateProduct(products, products[i]) == products
  {
    var r := Store.UpdateProduct(products, products[i]);
    forall j | 0 <= j < |products|
      ensures r[j] == products[j]
    {
      if j < i {
        assert products[j].id != products[i].id;
      } else if j > i {
        assert products[i].id != products[j].id;
      }
    }
  }

  /** The input of a tier row that fired the change event. */
  datatype TierField = LabelField | QuantityField | PriceField

  /**
   * `handleTierChange`: tier `index` gets the new value in the named field;
   * the label keeps the raw text, the numeric fields go through `toNumber`.
   */
  function HandleTierChange(tiers: seq<Tier>, index: int, field: TierField, value: string, toNumber: string -> int): (r: seq<Tier>)
    requires 0 <= index < |tiers|
    ensures |r| == |tiers|
    ensures forall i :: 0 <= i < |tiers| && i != index ==> r[i] == tiers[i]
    ensures field == LabelField ==> r[index] == tiers[index].(labelText := value)
    ensures field == QuantityField ==> r[index] == tiers[index].(quantity := toNumber(value))
    ensures field == PriceField ==> r[index] == tiers[index].(price := toNumber(value))
  {
    var t := tiers[index];
    var t' := match field
      case LabelField => t.(labelText := value)
      case QuantityField => t.(quantity := toNumber(value))
      case PriceField => t.(price := toNumber(value));
    tiers[index := t']
  }

  /** `addTier`: one blank tier at the end. */
  function AddTier(tiers: seq<Tier>): (r: seq<Tier>)
    ensures |r| == |tiers| + 1
    ensures r[..|tiers|] == tiers && r[|tiers|] == BlankTier
  {
    tiers + [BlankTier]
  }

  /** `filter((_, i) => i !== index)`, written over positions. */
  function DropIndex<T>(s: seq<T>, index: int): (r: seq<T>)
    ensures 0 <= index < |s| ==> |r| == |s| - 1
    ensures !(0 <= index < |s|) ==> r == s
  {
    if |s| == 0 then []
    else if index == 0 then s[1..]
    else [s[0]] + DropIndex(s[1..], index - 1)
  }

  /** Removing a tier is removing exactly that position: the parts before and after are glued back. */
  lemma {:induction false} DropIndexIsSplice<T>(s: seq<T>, index: int)
    requires 0 <= index < |s|
    ensures DropIndex(s, index) == s[..index] + s[index + 1..]
  {
    if index > 0 {
      DropIndexIsSplice(s[1..], index - 1);
      assert s[1..][..index - 1] + s[1..][index..] == s[1..index] + s[index + 1..];
      assert [s[0]] + s[1..index] == s[..index];
    }
  }

  /** Adding a tier and removing the last one gives back the tiers. */
  lemma AddThenRemoveTier(tiers: seq<Tier>)
    ensures DropIndex(AddTier(tiers), |tiers|) == tiers
  {
    DropIndexIsSplice(AddTier(tiers), |tiers|);
  }

  /** `handleSubmit`: a form with an id updates that product, a form without one adds a new product. */
  function HandleSubmit(form: ProductForm): (r: Store.CatalogAction)
    ensures form.id.Some? <==> r.UpdateAction?
    ensures form.id.Some? ==> r == Store.UpdateAction(Product(form.id.value, form.info))
    ensures form.id.None? ==> r == Store.AddAction(form.info)
  {
    match form.id
    case Some(id) => Store.UpdateAction(Product(id, form.info))
    case None => Store.AddAction(form.info)
  }

  /** Submitting an edited product leaves the catalog's ids where they were; submitting a new one adds exactly one product at the end. */
  lemma SubmitEffect(s: Store.AppState, form: ProductForm)
    requires Store.CatalogInvariant(s.products, s.lastId)
    ensures var r := Store.ApplyCatalogAction(s, HandleSubmit(form));
      && Store.CatalogInvariant(r.products, r.lastId)
      && (form.id.Some? ==> |r.products| == |s.products| && forall i :: 0 <= i < |s.products| ==> r.products[i].id == s.products[i].id)
      && (form.id.None? ==> r.products[..|s.products|] == s.products && |r.products| == |s.products| + 1 && r.products[|s.products|].info == form.info)
  {
    Store.CatalogActionsKeepInvariant(s, HandleSubmit(form));
    if form.id.Some? {
      Store.UpdateProductKeepsInvariant(s.products, s.lastId, Product(form.id.value, form.info));
    }
  }

  // ---------------------------------------------------------------------------
  // The customization-option editor

  /** What the editor holds: the three lists and the three pending inputs. */
  datatype OptionEditor = OptionEditor(options: CustomizationCollection, inputs: PerGroup<string>)

  /**
   * `handleAddOption`: a blank input changes nothing; otherwise its trimmed
   * text goes to the end of that group and the input is cleared.
   */
  function HandleAddOption(e: OptionEditor, g: OptionGroup): (r: OptionEditor)
    ensures AllWhitespace(e.inputs.Get(g)) ==> r == e
    ensures !AllWhitespace(e.inputs.Get(g)) ==>
      && r.options.Get(g) == e.options.Get(g) + [Trim(e.inputs.Get(g))]
      && Trim(e.inputs.Get(g)) != ""
      && r.inputs.Get(g) == ""
    ensures forall h :: h != g ==> r.options.Get(h) == e.options.Get(h) && r.inputs.Get(h) == e.inputs.Get(h)
  {
    var text := Trim(e.inputs.Get(g));
    if text == "" then e
    else OptionEditor(e.options.Set(g, e.options.Get(g) + [text]), e.inputs.Set(g, ""))
  }

  function OtherOption(option: string): string -> bool {
    (o: string) => o != option
  }

  /** `handleDeleteOption`: every copy of the option leaves that group, which otherwise keeps its order. */
  function HandleDeleteOption(options: CustomizationCollection, g: OptionGroup, option: string): (r: CustomizationCollection)
    ensures option !in r.Get(g)
    ensures forall i :: 0 <= i < |options.Get(g)| && options.Get(g)[i] != option ==> options.Get(g)[i] in r.Get(g)
    ensures forall i :: 0 <= i < |r.Get(g)| ==> r.Get(g)[i] in options.Get(g)
    ensures forall h :: h != g ==> r.Get(h) == options.Get(h)
    ensures r.Get(g) == Filter(options.Get(g), OtherOption(option))
    ensures forall o :: multiset(r.Get(g))[o] == if o == option then 0 else multiset(options.Get(g))[o]
  {
    FilterCopies(options.Get(g), OtherOption(option));
    options.Set(g, Filter(options.Get(g), OtherOption(option)))
  }

  /** Deleting an option acts on each part of a split list separately, so the order of what remains is kept. */
  lemma DeleteOptionFromConcatenation(options: CustomizationCollection, g: OptionGroup, option: string, a: seq<string>, b: seq<string>)
    requires options.Get(g) == a + b
    ensures HandleDeleteOption(options, g, option).Get(g) == Filter(a, OtherOption(option)) + Filter(b, OtherOption(option))
  {
    FilterAppend(a, b, OtherOption(option));
  }

  /** Adding a new option and then deleting it restores the lists. */
  lemma AddThenDeleteOption(e: OptionEditor, g: OptionGroup)
    requires !AllWhitespace(e.inputs.Get(g))
    requires Trim(e.inputs.Get(g)) !in e.options.Get(g)
    ensures HandleDeleteOption(HandleAddOption(e, g).options, g, Trim(e.inputs.Get(g))) == e.options
  {
    var text := Trim(e.inputs.Get(g));
    var list := e.options.Get(g);
    FilterAppend(list, [text], OtherOption(text));
    FilterAll(list, OtherOption(text));
    assert Filter([text], OtherOption(text)) == [];
    var r := HandleDeleteOption(HandleAddOption(e, g).options, g, text);
    assert r.Get(g) == e.options.Get(g);
    assert r.flavors == e.options.flavors && r.fillings == e.options.fillings && r.colors == e.options.colors by {
      assert r.Get(Flavors) == e.options.Get(Flavors);
      assert r.Get(Fillings) == e.options.Get(Fillings);
      assert r.Get(Colors) == e.options.Get(Colors);
    }
  }

  /** Deleting twice removes nothing more. */
  lemma DeleteOptionIdempotent(options: CustomizationCollection, g: OptionGroup, option: string)
    ensures HandleDeleteOption(HandleDeleteOption(options, g, option), g, option) == HandleDeleteOption(options, g, option)
  {
    var once := HandleDeleteOption(options, g, option);
    FilterAll(once.Get(g), OtherOption(option));
    var twice := HandleDeleteOption(once, g, option);
    assert twice.Get(Flavors) == once.Get(Flavors);
    assert twice.Get(Fillings) == once.Get(Fillings);
    assert twice.Get(Colors) == once.Get(Colors);
  }
}

=== FILE: analytics.dfy ===
/**
 * The analytics dashboard (components/AnalyticsDashboard.tsx): the time
 * window over the event log, the sales and order totals, the per-product
 * event counts with the top product and the top three, and the daily sales
 * chart of the current month.
 *
 * The instants `new Date()` stands for become parameters: the start of
 * today, the start of the month, the number of days in the month, and the
 * day of the month of an event's timestamp (`getDate()`).
 */
module Analytics {
  import opened Base
  import opened Types
  import opened OrderedMap

  // ---------------------------------------------------------------------------
  // Time window

  datatype TimeFilter = Today | ThisMonth

  /** The first instant the window admits. */
  function Threshold(f: TimeFilter, todayStart: int, monthStart: int): int {
    match f
    case Today => todayStart
    case ThisMonth => monthStart
  }

  function InWindow(f: TimeFilter, todayStart: int, monthStart: int): AnalyticsEvent -> bool {
    (e: AnalyticsEvent) => e.timestamp >= Threshold(f, todayStart, monthStart)
  }

  /** `filteredData`: the events from the threshold on, in log order. */
  function FilterByTime(events: seq<AnalyticsEvent>, f: TimeFilter, todayStart: int, monthStart: int): (r: seq<AnalyticsEvent>)
    ensures forall i :: 0 <= i < |r| ==> r[i] in events && r[i].timestamp >= Threshold(f, todayStart, monthStart)
    ensures forall i :: 0 <= i < |events| && events[i].timestamp >= Threshold(f, todayStart, monthStart) ==> events[i] in r
  {
    Filter(events, InWindow(f, todayStart, monthStart))
  }

  /** The window keeps log order: filtering a log split in two is filtering each part. */
  lemma FilterByTimeKeepsOrder(a: seq<AnalyticsEvent>, b: seq<AnalyticsEvent>, f: TimeFilter, todayStart: int, monthStart: int)
    ensures FilterByTime(a + b, f, todayStart, monthStart) == FilterByTime(a, f, todayStart, monthStart) + FilterByTime(b, f, todayStart, monthStart)
  {
    FilterAppend(a, b, InWindow(f, todayStart, monthStart));
  }

  /** Today lies within the month, so every event of today's window is in the month's window too. */
  lemma TodayWithinMonth(events: seq<AnalyticsEvent>, todayStart: int, monthStart: int)
    requires monthStart <= todayStart
    ensures forall i :: 0 <= i < |FilterByTime(events, Today, todayStart, monthStart)| ==>
      FilterByTime(events, Today, todayStart, monthStart)[i] in FilterByTime(events, ThisMonth, todayStart, monthStart)
  {
    var today := FilterByTime(events, Today, todayStart, monthStart);
    forall i | 0 <= i < |today|
      ensures today[i] in FilterByTime(events, ThisMonth, todayStart, monthStart)
    {
      var j :| 0 <= j < |events| && events[j] == today[i];
    }
  }

  // ---------------------------------------------------------------------------
  // Sales and orders

  predicate IsOrder(e: AnalyticsEvent) {
    e.kind == Order
  }

  function Orders(events: seq<AnalyticsEvent>): seq<AnalyticsEvent> {
    Filter(events, IsOrder)
  }

  /** `order.total || 0`. */
  function OrderTotal(e: AnalyticsEvent): int {
    match e.total
    case None => 0
    case Some(t) => t
  }

  /** `totalSales`: the sum of the order totals. */
  function TotalSales(events: seq<AnalyticsEvent>): (r: int)
    ensures (forall i :: 0 <= i < |events| ==> OrderTotal(events[i]) >= 0) ==> r >= 0
  {
    var orders := Orders(events);
    assert forall i :: 0 <= i < |orders| ==> orders[i] in events;
    SumBy(orders, OrderTotal)
  }

  /** `totalOrders`: the number of order events. */
  function TotalOrders(events: seq<AnalyticsEvent>): (r: nat)
    ensures r <= |events|
  {
    |Orders(events)|
  }

  /** What an event adds to the sales figure when read directly: its total if it is an order, nothing otherwise. */
  function SalesOf(e: AnalyticsEvent): int {
    if IsOrder(e) then OrderTotal(e) else 0
  }

  function OrderCount(e: AnalyticsEvent): int {
    if IsOrder(e) then 1 else 0
  }

  /** The filtered totals agree with a direct pass over the whole log that ignores non-orders. */
  lemma {:induction false} TotalsByDirectPass(events: seq<AnalyticsEvent>)
    ensures TotalSales(events) == SumBy(events, SalesOf)
    ensures TotalOrders(events) == SumBy(events, OrderCount)
  {
    if |events| > 0 {
      TotalsByDirectPass(events[1..]);
      if IsOrder(events[0]) {
        assert Orders(events) == [events[0]] + Orders(events[1..]);
      } else {
        assert Orders(events) == Orders(events[1..]);
      }
    }
  }

  // ---------------------------------------------------------------------------
  // Per-product counts

  /** `items.forEach(...)` reads each line's product id. */
  function ItemIds(items: seq<CartItem>): (r: seq<int>)
    ensures |r| == |items|
    ensures forall i :: 0 <= i < |items| ==> r[i] == items[i].product.id
  {
    if |items| == 0 then [] else [items[0].product.id] + ItemIds(items[1..])
  }

  /**
   * The product ids one event contributes to the statistic `t`: for orders,
   * one per line item of an event that carries items (whatever the line's
   * tier quantity); otherwise the event's own product id, when the event has
   * that type and a truthy (present, non-zero) product id.
   */
  function EventContribution(e: AnalyticsEvent, t: EventType): seq<int> {
    if t == Order && e.kind == Order && e.items.Some? then ItemIds(e.items.value)
    else if e.kind == t && e.productId.Some? && e.productId.value != 0 then [e.productId.value]
    else []
  }

  /** Every id the log contributes, in the order the counting loop meets them. */
  function Contributions(events: seq<AnalyticsEvent>, t: EventType): seq<int> {
    if |events| == 0 then [] else EventContribution(events[0], t) + Contributions(events[1..], t)
  }

  /** `counts.set(id, (counts.get(id) || 0) + 1)` for each id in turn. */
  function CountIds(m: Entries<int, int>, ids: seq<int>): Entries<int, int>
    decreases |ids|
  {
    if |ids| == 0 then m else CountIds(AddTo(m, ids[0], 1), ids[1..])
  }

  /** The inner `forEach` over an order's line items. */
  function CountItems(m: Entries<int, int>, items: seq<CartItem>): Entries<int, int>
    decreases |items|
  {
    if |items| == 0 then m else CountItems(AddTo(m, items[0].product.id, 1), items[1..])
  }

  /** The body of the outer `forEach` for one event. */
  function CountEvent(m: Entries<int, int>, e: AnalyticsEvent, t: EventType): Entries<int, int> {
    if t == Order && e.kind == Order && e.items.Some? then CountItems(m, e.items.value)
    else if e.kind == t && e.productId.Some? && e.productId.value != 0 then AddTo(m, e.productId.value, 1)
    else m
  }

  /** The outer `forEach`: the nested loops count exactly the contributed ids, in order. */
  function CountEvents(m: Entries<int, int>, events: seq<AnalyticsEvent>, t: EventType): (r: Entries<int, int>)
    ensures r == CountIds(m, Contributions(events, t))
    decreases |events|
  {
    if |events| == 0 then m
    else
      var e := events[0];
      CountEventIsCountIds(m, e, t);
      CountIdsAppend(m, EventContribution(e, t), Contributions(events[1..], t));
      CountEvents(CountEvent(m, e, t), events[1..], t)
  }

  /**
   * The `counts` map built by `getTopProduct` and `getTopThreeProducts`:
   * keys are distinct, a product is present exactly when it was
   * contributed, each count is its number of contributions, and the map is
   * empty exactly when nothing was contributed.
   */
  function Counts(events: seq<AnalyticsEvent>, t: EventType): (r: Entries<int, int>)
    ensures CountsOf(r, Contributions(events, t))
  {
    CountIdsFromEmpty(Contributions(events, t));
    CountEvents([], events, t)
  }

  lemma {:induction false} CountIdsAppend(m: Entries<int, int>, a: seq<int>, b: seq<int>)
    ensures CountIds(m, a + b) == CountIds(CountIds(m, a), b)
    decreases |a|
  {
    if |a| == 0 {
      assert a + b == b;
    } else {
      assert (a + b)[1..] == a[1..] + b;
      CountIdsAppend(AddTo(m, a[0], 1), a[1..], b);
    }
  }

  lemma {:induction false} CountItemsIsCountIds(m: Entries<int, int>, items: seq<CartItem>)
    ensures CountItems(m, items) == CountIds(m, ItemIds(items))
    decreases |items|
  {
    if |items| > 0 {
      CountItemsIsCountIds(AddTo(m, items[0].product.id, 1), items[1..]);
      assert ItemIds(items)[1..] == ItemIds(items[1..]);
    }
  }

  /** One event's body counts exactly that event's contribution. */
  lemma CountEventIsCountIds(m: Entries<int, int>, e: AnalyticsEvent, t: EventType)
    ensures CountEvent(m, e, t) == CountIds(m, EventContribution(e, t))
  {
    if t == Order && e.kind == Order && e.items.Some? {
      CountItemsIsCountIds(m, e.items.value);
    } else if e.kind == t && e.productId.Some? && e.productId.value != 0 {
      assert CountIds(m, [e.productId.value]) == CountIds(AddTo(m, e.productId.value, 1), []);
    }
  }

  /** Counting adds each id's number of occurrences to its value, and makes exactly the counted ids present. */
  lemma {:induction false} CountIdsMeaning(m: Entries<int, int>, ids: seq<int>)
    requires DistinctKeys(m)
    ensures DistinctKeys(CountIds(m, ids))
    ensures forall k :: GetOrZero(CountIds(m, ids), k) == GetOrZero(m, k) + multiset(ids)[k]
    ensures forall k :: k in Keys(CountIds(m, ids)) <==> k in Keys(m) || k in ids
    decreases |ids|
  {
    if |ids| > 0 {
      var m' := AddTo(m, ids[0], 1);
      SetKeepsDistinct(m, ids[0], GetOrZero(m, ids[0]) + 1);
      CountIdsMeaning(m', ids[1..]);
      assert ids == [ids[0]] + ids[1..];
      assert multiset(ids) == multiset{ids[0]} + multiset(ids[1..]);
      forall k
        ensures k in ids <==> k == ids[0] || k in ids[1..]
      {
      }
    }
  }

  /** Position of the first occurrence of `k` in `ids`, or `|ids|` when it does not occur. */
  function FirstIndex(ids: seq<int>, k: int): (r: nat)
    ensures r <= |ids|
    ensures r < |ids| <==> k in ids
    ensures r < |ids| ==> ids[r] == k
    ensures forall j :: 0 <= j < r ==> ids[j] != k
  {
    if |ids| == 0 then 0 else if ids[0] == k then 0 else 1 + FirstIndex(ids[1..], k)
  }

  /**
   * `after` keeps `before` in front and appends ids of `ids` not in `before`,
   * in the order of their first occurrence in `ids`.
   */
  ghost predicate AppendsInFirstSeenOrder(before: seq<int>, after: seq<int>, ids: seq<int>) {
    && |before| <= |after|
    && after[..|before|] == before
    && (forall i :: |before| <= i < |after| ==> after[i] in ids && after[i] !in before)
    && (forall i, j :: |before| <= i < j < |after| ==> FirstIndex(ids, after[i]) < FirstIndex(ids, after[j]))
  }

  /** Past a leading `x`, first occurrences of other ids move one place. */
  lemma FirstIndexPastHead(x: int, rest: seq<int>, k: int)
    requires k != x
    ensures FirstIndex([x] + rest, k) == 1 + FirstIndex(rest, k)
  {
    assert ([x] + rest)[1..] == rest;
  }

  /** One counting step: if the rest appends in order after `x` is counted, the whole does. */
  lemma KeyOrderStep(before: seq<int>, x: int, rest: seq<int>, next: seq<int>, after: seq<int>)
    requires next == if x in before then before else before + [x]
    requires AppendsInFirstSeenOrder(next, after, rest)
    ensures AppendsInFirstSeenOrder(before, after, [x] + rest)
  {
    var ids := [x] + rest;
    var n := |before|;
    if x in before {
      forall i, j | n <= i < j < |after|
        ensures FirstIndex(ids, after[i]) < FirstIndex(ids, after[j])
      {
        FirstIndexPastHead(x, rest, after[i]);
        FirstIndexPastHead(x, rest, after[j]);
      }
    } else {
      assert after[..n] == after[..|next|][..n];
      assert after[n] == next[n];
      forall i | n < i < |after|
        ensures after[i] != x && after[i] !in before
      {
        assert after[i] !in next;
      }
      forall i, j | n <= i < j < |after|
        ensures FirstIndex(ids, after[i]) < FirstIndex(ids, after[j])
      {
        FirstIndexPastHead(x, rest, after[j]);
        if i > n {
          FirstIndexPastHead(x, rest, after[i]);
        }
      }
    }
  }

  /**
   * A JavaScript Map keeps keys in insertion order: counting keeps the keys
   * already present in front, and appends the new ids in the order of their
   * first occurrence.
   */
  lemma {:induction false} CountIdsKeyOrder(m: Entries<int, int>, ids: seq<int>)
    ensures AppendsInFirstSeenOrder(Keys(m), Keys(CountIds(m, ids)), ids)
    decreases |ids|
  {
    if |ids| > 0 {
      var m' := AddTo(m, ids[0], 1);
      assert CountIds(m, ids) == CountIds(m', ids[1..]);
      CountIdsKeyOrder(m', ids[1..]);
      KeyOrderStep(Keys(m), ids[0], ids[1..], Keys(m'), Keys(CountIds(m, ids)));
      assert [ids[0]] + ids[1..] == ids;
    } else {
      assert Keys(m)[..|Keys(m)|] == Keys(m);
    }
  }

  /** The counted keys are ordered by first occurrence in `ids`. */
  ghost predicate FirstSeenOrder(c: Entries<int, int>, ids: seq<int>) {
    forall i, j :: 0 <= i < j < |c| ==> FirstIndex(ids, c[i].0) < FirstIndex(ids, c[j].0)
  }

  /** `c` is the count map of `ids`: distinct keys, exactly the counted ids, each with its number of occurrences. */
  ghost predicate CountsOf(c: Entries<int, int>, ids: seq<int>) {
    && DistinctKeys(c)
    && (forall k :: GetOrZero(c, k) == multiset(ids)[k])
    && (forall k :: k in Keys(c) <==> k in ids)
    && (forall i :: 0 <= i < |c| ==> c[i].1 == multiset(ids)[c[i].0])
    && (|c| == 0 <==> |ids| == 0)
    && FirstSeenOrder(c, ids)
  }

  lemma CountIdsFromEmpty(ids: seq<int>)
    ensures CountsOf(CountIds([], ids), ids)
  {
    var c := CountIds([], ids);
    CountIdsMeaning([], ids);
    KeysAt(c);
    CountIdsKeyOrder([], ids);
    forall i | 0 <= i < |c|
      ensures c[i].1 == multiset(ids)[c[i].0]
    {
      GetAt(c, i);
    }
    if |ids| > 0 {
      var first := AddTo([], ids[0], 1);
      CountIdsMeaning(first, ids[1..]);
      assert ids[0] in Keys(c);
    }
  }

  /** An order with line items counts once per line, whatever the tier's quantity. */
  lemma OrderCountsLines(e: AnalyticsEvent)
    requires e.kind == Order && e.items.Some?
    ensures |EventContribution(e, Order)| == |e.items.value|
    ensures EventContribution(e, View) == [] && EventContribution(e, AddToCart) == []
  {
  }

  // ---------------------------------------------------------------------------
  // Top product

  /**
   * `reduce((a, b) => a[1] > b[1] ? a : b)` over the entries: the position
   * of a largest count, and of the last one when several tie.
   */
  function TopIndex(m: Entries<int, int>): (r: nat)
    requires |m| > 0
    ensures r < |m|
    ensures forall i :: 0 <= i < |m| ==> m[i].1 <= m[r].1
    ensures forall i :: r < i < |m| ==> m[i].1 < m[r].1
  {
    if |m| == 1 then 0
    else
      var a := TopIndex(m[..|m| - 1]);
      assert forall i :: 0 <= i < |m| - 1 ==> m[..|m| - 1][i] == m[i];
      if m[a].1 > m[|m| - 1].1 then a else |m| - 1
  }

  /** `new Map(products.map(p => [p.id, p]))`: one entry per id, the later product winning. */
  function ProductMap(products: seq<Product>): (r: Entries<int, Product>)
    ensures DistinctKeys(r)
    ensures forall id :: Get(r, id).Some? <==> HasId(products, id)
    ensures forall id :: Get(r, id).Some? ==> Get(r, id).value in products && Get(r, id).value.id == id
  {
    if |products| == 0 then []
    else
      var init := products[..|products| - 1];
      var p := products[|products| - 1];
      var m := ProductMap(init);
      SetKeepsDistinct(m, p.id, p);
      assert forall i :: 0 <= i < |init| ==> init[i] == products[i];
      assert forall id :: HasId(init, id) ==> HasId(products, id);
      assert forall id :: id != p.id && HasId(products, id) ==> HasId(init, id);
      Set(m, p.id, p)
  }

  /** With distinct ids the map finds the same product as a front-to-back search. */
  lemma ProductMapFindsProduct(products: seq<Product>, id: int)
    requires DistinctIds(products)
    ensures Get(ProductMap(products), id) == FindProduct(products, id)
  {
    var a := Get(ProductMap(products), id);
    var b := FindProduct(products, id);
    if a.Some? {
      var i :| 0 <= i < |products| && products[i] == a.value;
      var j :| 0 <= j < |products| && products[j] == b.value;
    }
  }

  lemma ProductMapFindsIfDistinct(products: seq<Product>, id: int)
    ensures DistinctIds(products) ==> Get(ProductMap(products), id) == FindProduct(products, id)
  {
    if DistinctIds(products) {
      ProductMapFindsProduct(products, id);
    }
  }

  /**
   * `productMap.get(id)?.name || fallback`: the fallback for an unknown id or
   * an empty name; otherwise, in a catalog with distinct ids, the name of the
   * product with that id.
   */
  function ProductName(products: seq<Product>, id: int, fallback: string): (r: string)
    ensures FindProduct(products, id).None? ==> r == fallback
    ensures DistinctIds(products) && FindProduct(products, id).Some? ==>
      r == (if FindProduct(products, id).value.info.name != "" then FindProduct(products, id).value.info.name else fallback)
    ensures r != fallback ==> exists i :: 0 <= i < |products| && products[i].id == id && products[i].info.name == r
  {
    ProductMapFindsIfDistinct(products, id);
    match Get(ProductMap(products), id)
    case None => fallback
    case Some(p) => if p.info.name == "" then fallback else p.info.name
  }

  /**
   * Of ids counted equally often, the reduction keeps the one whose key was
   * inserted last, that is, the one first seen latest.
   */
  lemma TopIndexLastSeen(c: Entries<int, int>, ids: seq<int>, k: int)
    requires CountsOf(c, ids) && |c| > 0
    requires k in ids && multiset(ids)[k] == multiset(ids)[c[TopIndex(c)].0]
    ensures FirstIndex(ids, k) <= FirstIndex(ids, c[TopIndex(c)].0)
  {
    var top := TopIndex(c);
    KeysAt(c);
    assert k in Keys(c);
    var j :| 0 <= j < |c| && Keys(c)[j] == k;
    assert c[j].1 == multiset(ids)[c[j].0];
    assert c[top].1 == multiset(ids)[c[top].0];
    LaterTieSeenLater(c, ids, top, j);
  }

  /** With keys in first-seen order, no entry past the top one ties it, so a tie was seen no later. */
  lemma LaterTieSeenLater(c: Entries<int, int>, ids: seq<int>, top: nat, j: nat)
    requires FirstSeenOrder(c, ids) && top < |c| && j < |c|
    requires forall i :: top < i < |c| ==> c[i].1 < c[top].1
    requires c[j].1 == c[top].1
    ensures FirstIndex(ids, c[j].0) <= FirstIndex(ids, c[top].0)
  {
    if j < top {
      assert FirstIndex(ids, c[j].0) < FirstIndex(ids, c[top].0);
    }
  }

  /** The id `getTopProduct` settles on, if any id was counted. */
  function TopProductId(events: seq<AnalyticsEvent>, t: EventType): (r: Option<int>)
    ensures r.None? <==> |Contributions(events, t)| == 0
    ensures r.Some? ==> r.value in Contributions(events, t)
    ensures r.Some? ==> forall k :: multiset(Contributions(events, t))[k] <= multiset(Contributions(events, t))[r.value]
    ensures r.Some? ==> forall k ::
      (k in Contributions(events, t) && multiset(Contributions(events, t))[k] == multiset(Contributions(events, t))[r.value]) ==>
      FirstIndex(Contributions(events, t), k) <= FirstIndex(Contributions(events, t), r.value)
  {
    var c := Counts(events, t);
    if |c| == 0 then None
    else
      var top := TopIndex(c);
      KeysAt(c);
      assert c[top].0 in Keys(c);
      forall k
        ensures multiset(Contributions(events, t))[k] <= multiset(Contributions(events, t))[c[top].0]
      {
        if k in Contributions(events, t) {
          assert k in Keys(c);
          var i :| 0 <= i < |c| && Keys(c)[i] == k;
        }
      }
      forall k | k in Contributions(events, t) &&
        multiset(Contributions(events, t))[k] == multiset(Contributions(events, t))[c[top].0]
        ensures FirstIndex(Contributions(events, t), k) <= FirstIndex(Contributions(events, t), c[top].0)
      {
        TopIndexLastSeen(c, Contributions(events, t), k);
      }
      Some(c[top].0)
  }

  /**
   * `getTopProduct`: "N/A" when nothing was counted, else the name of the
   * most counted product, or "Producto Desconocido" when the catalog has no
   * named product with that id.
   */
  function TopProductName(events: seq<AnalyticsEvent>, products: seq<Product>, t: EventType): (r: string)
    ensures |Contributions(events, t)| == 0 ==> r == "N/A"
    ensures |Contributions(events, t)| > 0 ==> r == ProductName(products, TopProductId(events, t).value, "Producto Desconocido")
    ensures |Contributions(events, t)| > 0 ==>
      r == "Producto Desconocido" ||
      exists i :: 0 <= i < |products| && products[i].id == TopProductId(events, t).value && products[i].info.name == r
    ensures |Contributions(events, t)| > 0 && DistinctIds(products) ==>
      var found := FindProduct(products, TopProductId(events, t).value);
      found.Some? && found.value.info.name != "" ==> r == found.value.info.name
  {
    match TopProductId(events, t)
    case None => "N/A"
    case Some(id) => ProductName(products, id, "Producto Desconocido")
  }

  // ---------------------------------------------------------------------------
  // Top three

  /** Counts never increase along the sequence. */
  predicate SortedByCount(s: Entries<int, int>) {
    forall i, j :: 0 <= i < j < |s| ==> s[i].1 >= s[j].1
  }

  /** Inserts after every entry whose count is at least as large, which keeps equal counts in arrival order. */
  function InsertByCount(x: (int, int), s: Entries<int, int>): (r: Entries<int, int>)
    ensures |r| == |s| + 1
    ensures multiset(r) == multiset(s) + multiset{x}
  {
    if |s| == 0 then [x]
    else if s[0].1 >= x.1 then
      assert s == [s[0]] + s[1..];
      [s[0]] + InsertByCount(x, s[1..])
    else
      [x] + s
  }

  /** Inserting into a sorted sequence keeps it sorted. */
  lemma {:induction false} InsertKeepsSorted(x: (int, int), s: Entries<int, int>)
    requires SortedByCount(s)
    ensures SortedByCount(InsertByCount(x, s))
  {
    if |s| > 0 && s[0].1 >= x.1 {
      var tail := s[1..];
      TailSorted(s);
      InsertKeepsSorted(x, tail);
      var rest := InsertByCount(x, tail);
      forall k | 0 <= k < |rest|
        ensures rest[k].1 <= s[0].1
      {
        assert rest[k] in multiset(rest);
        if rest[k] != x {
          assert rest[k] in multiset(tail);
          var j :| 0 <= j < |tail| && tail[j] == rest[k];
          assert s[j + 1] == rest[k];
        }
      }
      ConsSorted(s[0], rest);
    } else if |s| > 0 {
      assert forall k :: 0 <= k < |s| ==> s[k].1 <= s[0].1;
      ConsSorted(x, s);
    }
  }

  lemma TailSorted(s: Entries<int, int>)
    requires SortedByCount(s) && |s| > 0
    ensures SortedByCount(s[1..])
  {
    var tail := s[1..];
    forall i, j | 0 <= i < j < |tail|
      ensures tail[i].1 >= tail[j].1
    {
      assert tail[i] == s[i + 1] && tail[j] == s[j + 1];
    }
  }

  /** An entry whose count bounds a sorted sequence can go in front of it. */
  lemma ConsSorted(a: (int, int), rest: Entries<int, int>)
    requires SortedByCount(rest)
    requires forall k :: 0 <= k < |rest| ==> rest[k].1 <= a.1
    ensures SortedByCount([a] + rest)
  {
    var r := [a] + rest;
    forall i, j | 0 <= i < j < |r|
      ensures r[i].1 >= r[j].1
    {
      assert r[j] == rest[j - 1];
      if i > 0 {
        assert r[i] == rest[i - 1];
      }
    }
  }

  /** The stable descending `sort((a, b) => b[1] - a[1])`. */
  function SortByCount(s: Entries<int, int>): (r: Entries<int, int>)
    ensures |r| == |s|
    ensures multiset(r) == multiset(s)
    ensures SortedByCount(r)
  {
    if |s| == 0 then []
    else
      assert s == s[..|s| - 1] + [s[|s| - 1]];
      var sorted := SortByCount(s[..|s| - 1]);
      InsertKeepsSorted(s[|s| - 1], sorted);
      InsertByCount(s[|s| - 1], sorted)
  }

  function Min(a: int, b: int): int {
    if a < b then a else b
  }

  /** `.sort(...).slice(0, 3)`: the three largest counts, fewer when fewer were counted. */
  function TopThreeEntries(counts: Entries<int, int>): (r: Entries<int, int>)
    ensures |r| == Min(3, |counts|)
    ensures SortedByCount(r)
    ensures forall i :: 0 <= i < |r| ==> r[i] in counts
    ensures forall i :: 0 <= i < |counts| && counts[i] !in r ==> counts[i].1 <= r[|r| - 1].1
  {
    var sorted := SortByCount(counts);
    SortedPrefix(counts, sorted, Min(3, |sorted|));
    sorted[..Min(3, |sorted|)]
  }

  /** A non-empty prefix of a sorted permutation is sorted, draws on the original, and bounds everything left out. */
  lemma SortedPrefix(counts: Entries<int, int>, sorted: Entries<int, int>, n: int)
    requires multiset(sorted) == multiset(counts) && SortedByCount(sorted)
    requires 0 <= n <= |sorted| && (n > 0 || |sorted| == 0)
    ensures SortedByCount(sorted[..n])
    ensures forall i :: 0 <= i < n ==> sorted[..n][i] in counts
    ensures forall i :: 0 <= i < |counts| && counts[i] !in sorted[..n] ==> counts[i].1 <= sorted[..n][n - 1].1
  {
    var r := sorted[..n];
    forall i | 0 <= i < n
      ensures r[i] in counts
    {
      assert r[i] in multiset(sorted);
    }
    forall i | 0 <= i < |counts| && counts[i] !in r
      ensures counts[i].1 <= r[n - 1].1
    {
      assert counts[i] in multiset(sorted);
      var j :| 0 <= j < |sorted| && sorted[j] == counts[i];
      assert j >= n;
    }
  }

  /** One row of a top-three table. */
  datatype Ranked = Ranked(name: string, count: int)

  function RankedRow(products: seq<Product>, e: (int, int)): Ranked {
    Ranked(ProductName(products, e.0, "Desconocido"), e.1)
  }

  /** `getTopThreeProducts`: the top entries with the product names looked up. */
  function TopThree(events: seq<AnalyticsEvent>, products: seq<Product>, t: EventType): (r: seq<Ranked>)
    ensures |r| <= 3
    ensures |r| == Min(3, |Counts(events, t)|)
    ensures forall i, j :: 0 <= i < j < |r| ==> r[i].count >= r[j].count
    ensures var top := TopThreeEntries(Counts(events, t));
      forall i :: 0 <= i < |r| ==> r[i].name == ProductName(products, top[i].0, "Desconocido") && r[i].count == top[i].1
  {
    RankedRows(products, TopThreeEntries(Counts(events, t)))
  }

  /** The table rows for the given entries, one per entry and in the same order, each with its entry's count. */
  function RankedRows(products: seq<Product>, top: Entries<int, int>): (r: seq<Ranked>)
    ensures |r| == |top|
    ensures forall i :: 0 <= i < |r| ==> r[i].name == ProductName(products, top[i].0, "Desconocido") && r[i].count == top[i].1
  {
    seq(|top|, i requires 0 <= i < |top| => RankedRow(products, top[i]))
  }

  /** Each top-three row shows a counted product with its true count, and no product left out was counted more often than the last row. */
  lemma TopThreeMeaning(events: seq<AnalyticsEvent>, t: EventType)
    ensures var top := TopThreeEntries(Counts(events, t));
      var ids := Contributions(events, t);
      && (forall i :: 0 <= i < |top| ==> top[i].0 in ids && top[i].1 == multiset(ids)[top[i].0])
      && (forall k :: k in ids && (forall i :: 0 <= i < |top| ==> top[i].0 != k) ==> |top| > 0 && multiset(ids)[k] <= top[|top| - 1].1)
  {
    TopThreeOfCounts(Counts(events, t), Contributions(events, t));
  }

  lemma TopThreeOfCounts(c: Entries<int, int>, ids: seq<int>)
    requires CountsOf(c, ids)
    ensures var top := TopThreeEntries(c);
      && (forall i :: 0 <= i < |top| ==> top[i].0 in ids && top[i].1 == multiset(ids)[top[i].0])
      && (forall k :: k in ids && (forall i :: 0 <= i < |top| ==> top[i].0 != k) ==> |top| > 0 && multiset(ids)[k] <= top[|top| - 1].1)
  {
    var top := TopThreeEntries(c);
    KeysAt(c);
    forall i | 0 <= i < |top|
      ensures top[i].0 in ids && top[i].1 == multiset(ids)[top[i].0]
    {
      var j :| 0 <= j < |c| && c[j] == top[i];
      assert Keys(c)[j] == c[j].0;
    }
    forall k | k in ids && (forall i :: 0 <= i < |top| ==> top[i].0 != k)
      ensures |top| > 0 && multiset(ids)[k] <= top[|top| - 1].1
    {
      assert k in Keys(c);
      var j :| 0 <= j < |c| && Keys(c)[j] == k;
      assert c[j] !in top;
    }
  }

  // ---------------------------------------------------------------------------
  // Sales chart

  /** `salesByDay` before the orders are added: one zero bucket per day 1..n, in day order. */
  function InitialBuckets(n: nat): (r: Entries<int, int>)
    ensures |r| == n
    ensures forall i :: 0 <= i < n ==> r[i] == (i + 1, 0)
  {
    seq(n, i requires 0 <= i < n => (i + 1, 0))
  }

  function OnDay(d: int, dayOf: int -> int): AnalyticsEvent -> bool {
    (e: AnalyticsEvent) => dayOf(e.timestamp) == d
  }

  /** Each order's total added to the bucket of its day, in log order. */
  function AddSales(m: Entries<int, int>, orders: seq<AnalyticsEvent>, dayOf: int -> int): Entries<int, int>
    decreases |orders|
  {
    if |orders| == 0 then m else AddSales(AddTo(m, dayOf(orders[0].timestamp), OrderTotal(orders[0])), orders[1..], dayOf)
  }

  /** `salesChartData.data`: the buckets of the month with the window's order totals added. */
  function SalesChart(events: seq<AnalyticsEvent>, daysInMonth: nat, dayOf: int -> int): (r: Entries<int, int>)
    requires 28 <= daysInMonth <= 31
    ensures |r| >= daysInMonth
  {
    AddSalesShape(InitialBuckets(daysInMonth), Orders(events), dayOf);
    AddSales(InitialBuckets(daysInMonth), Orders(events), dayOf)
  }

  lemma {:induction false} AddSalesShape(m: Entries<int, int>, orders: seq<AnalyticsEvent>, dayOf: int -> int)
    ensures Keys(m) <= Keys(AddSales(m, orders, dayOf))
    ensures (forall i :: 0 <= i < |orders| ==> dayOf(orders[i].timestamp) in Keys(m)) ==> Keys(AddSales(m, orders, dayOf)) == Keys(m)
    ensures |AddSales(m, orders, dayOf)| >= |m|
    decreases |orders|
  {
    KeysAt(m);
    if |orders| > 0 {
      var m' := AddTo(m, dayOf(orders[0].timestamp), OrderTotal(orders[0]));
      AddSalesShape(m', orders[1..], dayOf);
      KeysAt(m');
      KeysAt(AddSales(m, orders, dayOf));
      if forall i :: 0 <= i < |orders| ==> dayOf(orders[i].timestamp) in Keys(m) {
        assert Keys(m') == Keys(m);
        assert forall i :: 0 <= i < |orders| - 1 ==> orders[1..][i] == orders[i + 1];
      }
    }
  }

  /** The buckets are exactly the days of the month, in order, when every order falls within it. */
  lemma ChartDays(events: seq<AnalyticsEvent>, daysInMonth: nat, dayOf: int -> int)
    requires 28 <= daysInMonth <= 31
    requires forall i :: 0 <= i < |events| && IsOrder(events[i]) ==> 1 <= dayOf(events[i].timestamp) <= daysInMonth
    ensures |SalesChart(events, daysInMonth, dayOf)| == daysInMonth
    ensures forall i :: 0 <= i < daysInMonth ==> SalesChart(events, daysInMonth, dayOf)[i].0 == i + 1
  {
    var b := InitialBuckets(daysInMonth);
    var orders := Orders(events);
    KeysAt(b);
    forall i | 0 <= i < |orders|
      ensures dayOf(orders[i].timestamp) in Keys(b)
    {
      var j :| 0 <= j < |events| && events[j] == orders[i];
      var d := dayOf(orders[i].timestamp);
      assert Keys(b)[d - 1] == d;
    }
    AddSalesShape(b, orders, dayOf);
    KeysAt(SalesChart(events, daysInMonth, dayOf));
  }

  /** Each bucket ends as its start plus the totals of the orders of that day; the sum of all buckets grows by all the totals. */
  lemma {:induction false} AddSalesMeaning(m: Entries<int, int>, orders: seq<AnalyticsEvent>, dayOf: int -> int)
    ensures forall d :: GetOrZero(AddSales(m, orders, dayOf), d) == GetOrZero(m, d) + SumBy(Filter(orders, OnDay(d, dayOf)), OrderTotal)
    ensures SumValues(AddSales(m, orders, dayOf)) == SumValues(m) + SumBy(orders, OrderTotal)
    decreases |orders|
  {
    if |orders| > 0 {
      var o := orders[0];
      var m' := AddTo(m, dayOf(o.timestamp), OrderTotal(o));
      AddSalesMeaning(m', orders[1..], dayOf);
      AddToSum(m, dayOf(o.timestamp), OrderTotal(o));
      forall d
        ensures GetOrZero(AddSales(m, orders, dayOf), d) == GetOrZero(m, d) + SumBy(Filter(orders, OnDay(d, dayOf)), OrderTotal)
      {
        if dayOf(o.timestamp) == d {
          assert Filter(orders, OnDay(d, dayOf)) == [o] + Filter(orders[1..], OnDay(d, dayOf));
        } else {
          assert Filter(orders, OnDay(d, dayOf)) == Filter(orders[1..], OnDay(d, dayOf));
        }
      }
    }
  }

  lemma {:induction false} ZeroBucketsSum(n: nat)
    ensures SumValues(InitialBuckets(n)) == 0
    ensures forall d :: GetOrZero(InitialBuckets(n), d) == 0
  {
    var b := InitialBuckets(n);
    ZeroEntries(b);
  }

  lemma {:induction false} ZeroEntries(m: Entries<int, int>)
    requires forall i :: 0 <= i < |m| ==> m[i].1 == 0
    ensures SumValues(m) == 0
    ensures forall d :: GetOrZero(m, d) == 0
  {
    if |m| > 0 {
      assert forall i :: 0 <= i < |m| - 1 ==> m[1..][i] == m[i + 1];
      ZeroEntries(m[1..]);
      forall d
        ensures GetOrZero(m, d) == 0
      {
        if m[0].0 != d {
          assert GetOrZero(m, d) == GetOrZero(m[1..], d);
        } else {
          assert Get(m, d) == Some(m[0].1);
        }
      }
    }
  }

  /** The chart adds up to the sales figure, and each day's bar is the sum of that day's order totals. */
  lemma ChartMatchesSales(events: seq<AnalyticsEvent>, daysInMonth: nat, dayOf: int -> int)
    requires 28 <= daysInMonth <= 31
    ensures SumValues(SalesChart(events, daysInMonth, dayOf)) == TotalSales(events)
    ensures forall d :: GetOrZero(SalesChart(events, daysInMonth, dayOf), d) == SumBy(Filter(Orders(events), OnDay(d, dayOf)), OrderTotal)
  {
    ZeroBucketsSum(daysInMonth);
    AddSalesMeaning(InitialBuckets(daysInMonth), Orders(events), dayOf);
  }

  /** `Math.max(...values)`. */
  function MaxValue(m: Entries<int, int>): (r: int)
    requires |m| > 0
    ensures forall i :: 0 <= i < |m| ==> m[i].1 <= r
    ensures exists i :: 0 <= i < |m| && m[i].1 == r
  {
    if |m| == 1 then m[0].1
    else
      var a := MaxValue(m[1..]);
      assert forall i :: 1 <= i < |m| ==> m[i] == m[1..][i - 1];
      if m[0].1 > a then m[0].1 else a
  }

  /** `maxValue`: the tallest bar, or 1 when that is 0, so that bar heights never divide by zero. */
  function ChartMaxValue(m: Entries<int, int>): (r: int)
    requires |m| > 0
    ensures r != 0
    ensures forall i :: 0 <= i < |m| ==> m[i].1 <= r
    ensures (exists i :: 0 <= i < |m| && m[i].1 == r) || (r == 1 && exists i :: 0 <= i < |m| && m[i].1 == 0)
  {
    var v := MaxValue(m);
    if v == 0 then 1 else v
  }
}

=== FILE: base.dfy ===
/**
 * Small functional vocabulary shared by every module: an optional value
 * (a TypeScript optional field or a possibly-undefined lookup), the
 * order-preserving `filter` of JavaScript arrays and the integer sum that
 * the storefront computes with `reduce((acc, x) => acc + f(x), 0)`.
 */
module Base {

  /** An optional value: `undefined` on the TypeScript side is `None`. */
  datatype Option<T> = None | Some(value: T)

  /** Array.prototype.filter: the elements satisfying `p`, in their original order. */
  function Filter<T>(s: seq<T>, p: T -> bool): (r: seq<T>)
    ensures |r| <= |s|
    ensures forall i :: 0 <= i < |r| ==> r[i] in s && p(r[i])
    ensures forall i :: 0 <= i < |s| && p(s[i]) ==> s[i] in r
  {
    if |s| == 0 then []
    else (if p(s[0]) then [s[0]] else []) + Filter(s[1..], p)
  }

  /** Filtering distributes over concatenation: the relative order of kept elements never changes. */
  lemma {:induction false} FilterAppend<T>(a: seq<T>, b: seq<T>, p: T -> bool)
    ensures Filter(a + b, p) == Filter(a, p) + Filter(b, p)
  {
    if |a| == 0 {
      assert a + b == b;
    } else {
      assert (a + b)[1..] == a[1..] + b;
      FilterAppend(a[1..], b, p);
    }
  }

  /** Filtering keeps every copy of a kept value and no copy of a dropped one. */
  lemma {:induction false} FilterCopies<T>(s: seq<T>, p: T -> bool)
    ensures forall x :: multiset(Filter(s, p))[x] == if p(x) then multiset(s)[x] else 0
  {
    if |s| > 0 {
      FilterCopies(s[1..], p);
      assert s == [s[0]] + s[1..];
      assert multiset(s) == multiset{s[0]} + multiset(s[1..]);
      var head: seq<T> := if p(s[0]) then [s[0]] else [];
      assert multiset(Filter(s, p)) == multiset(head) + multiset(Filter(s[1..], p));
    }
  }

  /** A filter that keeps every element is the identity. */
  lemma {:induction false} FilterAll<T>(s: seq<T>, p: T -> bool)
    requires forall i :: 0 <= i < |s| ==> p(s[i])
    ensures Filter(s, p) == s
  {
    if |s| > 0 {
      FilterAll(s[1..], p);
    }
  }

  /** A filter that keeps no element is empty. */
  lemma {:induction false} FilterNone<T>(s: seq<T>, p: T -> bool)
    requires forall i :: 0 <= i < |s| ==> !p(s[i])
    ensures Filter(s, p) == []
  {
    if |s| > 0 {
      FilterNone(s[1..], p);
    }
  }

  /** The sum of `f` over a sequence, as computed by `reduce((acc, x) => acc + f(x), 0)`. */
  function SumBy<T>(s: seq<T>, f: T -> int): (r: int)
    ensures |s| == 0 ==> r == 0
    ensures (forall i :: 0 <= i < |s| ==> f(s[i]) >= 0) ==> r >= 0
  {
    if |s| == 0 then 0 else f(s[0]) + SumBy(s[1..], f)
  }

  /** The sum over a concatenation is the sum of the sums. */
  lemma {:induction false} SumByAppend<T>(a: seq<T>, b: seq<T>, f: T -> int)
    ensures SumBy(a + b, f) == SumBy(a, f) + SumBy(b, f)
  {
    if |a| == 0 {
      assert a + b == b;
    } else {
      assert (a + b)[1..] == a[1..] + b;
      SumByAppend(a[1..], b, f);
    }
  }

  /** Splitting a sequence by a predicate splits its sum. */
  lemma {:induction false} SumByPartition<T>(s: seq<T>, f: T -> int, p: T -> bool, q: T -> bool)
    requires forall x :: q(x) == !p(x)
    ensures SumBy(s, f) == SumBy(Filter(s, p), f) + SumBy(Filter(s, q), f)
  {
    if |s| > 0 {
      SumByPartition(s[1..], f, p, q);
      if p(s[0]) {
        assert Filter(s, p) == [s[0]] + Filter(s[1..], p);
        assert Filter(s, q) == Filter(s[1..], q);
      } else {
        assert Filter(s, q) == [s[0]] + Filter(s[1..], q);
        assert Filter(s, p) == Filter(s[1..], p);
      }
    }
  }

  /** When every term is a multiple of 500 (the granularity of every seed price), so is the sum. */
  lemma {:induction false} SumByMultipleOf500<T>(s: seq<T>, f: T -> int)
    requires forall i :: 0 <= i < |s| ==> f(s[i]) % 500 == 0
    ensures SumBy(s, f) % 500 == 0
  {
    if |s| > 0 {
      SumByMultipleOf500(s[1..], f);
    }
  }
}

=== FILE: catalog.dfy ===
/**
 * The catalog page (components/CatalogPage.tsx): the products split into
 * the promotions, sweets and savouries sections, and the rule that a
 * section without products is not rendered.
 */
module Catalog {
  import opened Base
  import opened Types
  import Constants

  function InCategory(c: Category): Product -> bool {
    (p: Product) => p.info.category == c
  }

  /** `products.filter(p => p.category === c)`: the products of one category, in catalog order. */
  function Section(products: seq<Product>, c: Category): (r: seq<Product>)
    ensures |r| <= |products|
    ensures forall i :: 0 <= i < |r| ==> r[i] in products && r[i].info.category == c
    ensures forall i :: 0 <= i < |products| && products[i].info.category == c ==> products[i] in r
  {
    Filter(products, InCategory(c))
  }

  /** A section keeps every copy of each product of its category and no copy of any other. */
  lemma SectionCopies(products: seq<Product>, c: Category)
    ensures forall p :: multiset(Section(products, c))[p] == if p.info.category == c then multiset(products)[p] else 0
  {
    FilterCopies(products, InCategory(c));
  }

  /** A section of a split catalog is the sections of its parts, one after the other: the catalog order is kept. */
  lemma SectionOfConcatenation(a: seq<Product>, b: seq<Product>, c: Category)
    ensures Section(a + b, c) == Section(a, c) + Section(b, c)
  {
    FilterAppend(a, b, InCategory(c));
  }

  /** On a single product, the section keeps it exactly when it is of that category. */
  lemma SectionOne(p: Product, c: Category)
    ensures Section([p], c) == if p.info.category == c then [p] else []
  {
    assert [p][1..] == [];
  }

  /** The three sections in page order: promotions, sweets, savouries. */
  datatype Sections = Sections(promociones: seq<Product>, dulces: seq<Product>, salados: seq<Product>)

  function CatalogSections(products: seq<Product>): (r: Sections)
    ensures r.promociones == Section(products, Promocion)
    ensures r.dulces == Section(products, Dulce)
    ensures r.salados == Section(products, Salado)
    ensures |r.promociones| + |r.dulces| + |r.salados| == |products|
  {
    SectionSizes(products);
    Sections(Section(products, Promocion), Section(products, Dulce), Section(products, Salado))
  }

  /** The three section sizes add up to the number of products: no product is dropped or shown twice. */
  lemma {:induction false} SectionSizes(products: seq<Product>)
    ensures |Section(products, Promocion)| + |Section(products, Dulce)| + |Section(products, Salado)| == |products|
  {
    if |products| > 0 {
      SectionSizes(products[1..]);
      assert Section(products, Promocion) == (if products[0].info.category == Promocion then [products[0]] else []) + Section(products[1..], Promocion);
      assert Section(products, Dulce) == (if products[0].info.category == Dulce then [products[0]] else []) + Section(products[1..], Dulce);
      assert Section(products, Salado) == (if products[0].info.category == Salado then [products[0]] else []) + Section(products[1..], Salado);
    }
  }

  /** Each product is shown in exactly one section, the one of its category. */
  lemma ExactlyOneSection(products: seq<Product>, i: int)
    requires 0 <= i < |products|
    ensures var p := products[i];
      && (p in Section(products, Promocion) <==> p.info.category == Promocion)
      && (p in Section(products, Dulce) <==> p.info.category == Dulce)
      && (p in Section(products, Salado) <==> p.info.category == Salado)
  {
    var p := products[i];
    forall c: Category
      ensures p in Section(products, c) <==> p.info.category == c
    {
      if p in Section(products, c) {
        var j :| 0 <= j < |Section(products, c)| && Section(products, c)[j] == p;
      }
    }
  }

  /** A rendered section: its title and its products. */
  datatype RenderedSection = RenderedSection(title: string, products: seq<Product>)

  /** `CategorySection`: nothing for an empty list, else the titled grid. */
  function CategorySection(title: string, products: seq<Product>): (r: Option<RenderedSection>)
    ensures r.None? <==> |products| == 0
    ensures r.Some? ==> r.value.products == products && r.value.title == title
  {
    if |products| == 0 then None else Some(RenderedSection(title, products))
  }

  /** The heading each category's section is shown under. */
  function SectionTitle(c: Category): string {
    match c
    case Promocion => "Promociones Imperdibles"
    case Dulce => "Delicias Dulces"
    case Salado => "Bocados Salados"
  }

  /** The category whose heading `title` is; the three headings are told apart. */
  function TitleCategory(title: string): (c: Category)
    ensures forall d: Category :: title == SectionTitle(d) ==> c == d
  {
    if title == SectionTitle(Promocion) then Promocion
    else if title == SectionTitle(Dulce) then Dulce
    else Salado
  }

  /** The headings of a page, in order. */
  function Titles(page: seq<RenderedSection>): (r: seq<string>)
    ensures |r| == |page|
    ensures forall i :: 0 <= i < |r| ==> r[i] == page[i].title
  {
    seq(|page|, i requires 0 <= i < |page| => page[i].title)
  }

  /** One of the three sections, chosen by category. */
  function SectionOf(s: Sections, c: Category): seq<Product> {
    match c
    case Promocion => s.promociones
    case Dulce => s.dulces
    case Salado => s.salados
  }

  /** The three `CategorySection`s one after the other: each non-empty list under its own heading, in page order. */
  function Assemble(s: Sections): (r: seq<RenderedSection>)
    ensures |r| <= 3
    ensures forall i :: 0 <= i < |r| ==> |r[i].products| > 0
    ensures forall i :: 0 <= i < |r| ==>
      r[i].title == SectionTitle(TitleCategory(r[i].title)) && r[i].products == SectionOf(s, TitleCategory(r[i].title))
    ensures forall c: Category :: |SectionOf(s, c)| > 0 <==> SectionTitle(c) in Titles(r)
  {
    var r := Present(CategorySection(SectionTitle(Promocion), s.promociones))
      + Present(CategorySection(SectionTitle(Dulce), s.dulces))
      + Present(CategorySection(SectionTitle(Salado), s.salados));
    HeadingShown(s, r, Promocion);
    HeadingShown(s, r, Dulce);
    HeadingShown(s, r, Salado);
    r
  }

  /** A category's heading is among the assembled headings exactly when its list is non-empty. */
  lemma HeadingShown(s: Sections, r: seq<RenderedSection>, c: Category)
    requires r == Present(CategorySection(SectionTitle(Promocion), s.promociones))
      + Present(CategorySection(SectionTitle(Dulce), s.dulces))
      + Present(CategorySection(SectionTitle(Salado), s.salados))
    ensures |SectionOf(s, c)| > 0 <==> SectionTitle(c) in Titles(r)
  {
    var t := Titles(r);
    if |SectionOf(s, c)| > 0 {
      var k := match c
        case Promocion => 0
        case Dulce => (if |s.promociones| > 0 then 1 else 0)
        case Salado => (if |s.promociones| > 0 then 1 else 0) + (if |s.dulces| > 0 then 1 else 0);
      assert t[k] == SectionTitle(c);
    } else {
      forall i | 0 <= i < |t|
        ensures t[i] != SectionTitle(c)
      {
        assert t[i] == r[i].title;
      }
    }
  }

  /**
   * The page: the sections that have products, in page order. Every shown
   * section sits under a category's heading and holds exactly that
   * category's products, and a category's heading is shown exactly when it
   * has products.
   */
  function CatalogPage(products: seq<Product>): (r: seq<RenderedSection>)
    ensures |r| <= 3
    ensures forall i :: 0 <= i < |r| ==> |r[i].products| > 0
    ensures forall i :: 0 <= i < |r| ==>
      r[i].title == SectionTitle(TitleCategory(r[i].title)) && r[i].products == Section(products, TitleCategory(r[i].title))
    ensures forall c: Category :: |Section(products, c)| > 0 <==> SectionTitle(c) in Titles(r)
  {
    var s := CatalogSections(products);
    assert forall c: Category :: SectionOf(s, c) == Section(products, c);
    Assemble(s)
  }

  function Present<T>(o: Option<T>): (r: seq<T>)
    ensures |r| <= 1
    ensures o.Some? ==> r == [o.value]
    ensures o.None? ==> r == []
  {
    match o
    case None => []
    case Some(v) => [v]
  }

  /** The number of product cards on a page. */
  function CardCount(page: seq<RenderedSection>): nat {
    if |page| == 0 then 0 else |page[0].products| + CardCount(page[1..])
  }

  /** The page shows one card per product: the non-empty sections together hold the whole catalog, and the page is empty exactly when the catalog is. */
  lemma PageShowsEveryProduct(products: seq<Product>)
    ensures CardCount(CatalogPage(products)) == |products|
    ensures |CatalogPage(products)| == 0 <==> |products| == 0
  {
    var s := CatalogSections(products);
    assert CatalogPage(products) == Assemble(s);
    AssembleCards(s);
  }

  /** The assembled page holds one card per product of the three lists, and is empty exactly when all three are. */
  lemma AssembleCards(s: Sections)
    ensures CardCount(Assemble(s)) == |s.promociones| + |s.dulces| + |s.salados|
    ensures |Assemble(s)| == 0 <==> |s.promociones| + |s.dulces| + |s.salados| == 0
  {
    var a := Present(CategorySection(SectionTitle(Promocion), s.promociones));
    var b := Present(CategorySection(SectionTitle(Dulce), s.dulces));
    var c := Present(CategorySection(SectionTitle(Salado), s.salados));
    assert Assemble(s) == a + b + c;
    CardCountAppend(a, b);
    CardCountAppend(a + b, c);
    CardCountSingle(a);
    CardCountSingle(b);
    CardCountSingle(c);
  }

  lemma CardCountSingle(a: seq<RenderedSection>)
    requires |a| <= 1
    ensures CardCount(a) == if |a| == 0 then 0 else |a[0].products|
  {
    if |a| == 1 {
      assert a[1..] == [];
    }
  }

  lemma {:induction false} CardCountAppend(a: seq<RenderedSection>, b: seq<RenderedSection>)
    ensures CardCount(a + b) == CardCount(a) + CardCount(b)
  {
    if |a| == 0 {
      assert a + b == b;
    } else {
      assert (a + b)[1..] == a[1..] + b;
      CardCountAppend(a[1..], b);
    }
  }

  /** Sections keep the page order: promotions before sweets before savouries, each when present. */
  lemma SectionOrder(products: seq<Product>)
    ensures var page := CatalogPage(products);
      forall i, j :: 0 <= i < j < |page| ==> Rank(page[i].title) < Rank(page[j].title)
  {
    var s := CatalogSections(products);
    assert CatalogPage(products) == Assemble(s);
    AssembleOrder(s);
  }

  lemma AssembleOrder(s: Sections)
    ensures var page := Assemble(s);
      forall i, j :: 0 <= i < j < |page| ==> Rank(page[i].title) < Rank(page[j].title)
  {
    var a := Present(CategorySection(SectionTitle(Promocion), s.promociones));
    var b := Present(CategorySection(SectionTitle(Dulce), s.dulces));
    var c := Present(CategorySection(SectionTitle(Salado), s.salados));
    assert Assemble(s) == a + b + c;
  }

  /** Position of a heading's category on the page: promotions, then sweets, then savouries. */
  function Rank(title: string): int {
    match TitleCategory(title)
    case Promocion => 0
    case Dulce => 1
    case Salado => 2
  }

  /** The seed catalog shows eight promotions, ten sweets and seven savouries. */
  lemma SeedSections()
    ensures |Section(Constants.InitialProducts, Promocion)| == 8
    ensures |Section(Constants.InitialProducts, Dulce)| == 10
    ensures |Section(Constants.InitialProducts, Salado)| == 7
  {
    var ps := Constants.InitialProducts;
    Constants.SeedCategoryPositions();
    var sweets, savouries, promos := ps[..10], ps[10..17], ps[17..];
    assert ps == sweets + savouries + promos;
    assert forall i :: 0 <= i < |promos| ==> promos[i].info.category == Promocion by {
      assert forall i :: 17 <= i < 25 ==> ps[i].info.category == Promocion;
    }
    BlockSection(sweets, savouries, promos, Dulce);
    BlockSection(sweets, savouries, promos, Salado);
    BlockSection(sweets, savouries, promos, Promocion);
  }

  /** The section of a catalog made of three single-category blocks is the block of that category, or empty. */
  lemma BlockSection(a: seq<Product>, b: seq<Product>, c: seq<Product>, cat: Category)
    requires forall i :: 0 <= i < |a| ==> a[i].info.category == Dulce
    requires forall i :: 0 <= i < |b| ==> b[i].info.category == Salado
    requires forall i :: 0 <= i < |c| ==> c[i].info.category == Promocion
    ensures cat == Dulce ==> Section(a + b + c, cat) == a
    ensures cat == Salado ==> Section(a + b + c, cat) == b
    ensures cat == Promocion ==> Section(a + b + c, cat) == c
  {
    FilterAppend(a + b, c, InCategory(cat));
    FilterAppend(a, b, InCategory(cat));
    if cat == Dulce { FilterAll(a, InCategory(cat)); } else { FilterNone(a, InCategory(cat)); }
    if cat == Salado { FilterAll(b, InCategory(cat)); } else { FilterNone(b, InCategory(cat)); }
    if cat == Promocion { FilterAll(c, InCategory(cat)); } else { FilterNone(c, InCategory(cat)); }
  }
}

=== FILE: confirmation.dfy ===
/**
 * The confirmation page (components/ConfirmationPage.tsx): the plain-text
 * order summary offered for download and the name of the downloaded file.
 *
 * The summary is built line by line, every line ended by a newline; the
 * model keeps the lines as a sequence and renders them at the end.
 * `toLocaleString('es-CL')` is the parameter `fmt`.
 */
module Confirmation {
  import opened Base
  import opened Text
  import opened Types

  const Title: string := "Resumen del Pedido - Pastelicias"
  const TitleRule: string := "=================================="
  const ItemRule: string := "----------------------------------"

  /** The lines joined with a newline after each one. */
  function Render(lines: seq<string>): string {
    if |lines| == 0 then "" else lines[0] + "\n" + Render(lines[1..])
  }

  /** Rendering is line by line: the text of a concatenation is the concatenation of the texts. */
  lemma {:induction false} RenderAppend(a: seq<string>, b: seq<string>)
    ensures Render(a + b) == Render(a) + Render(b)
  {
    if |a| == 0 {
      assert a + b == b;
    } else {
      assert (a + b)[1..] == a[1..] + b;
      RenderAppend(a[1..], b);
    }
  }

  function MethodText(d: DeliveryType): string {
    if d == Pickup then "Retiro en Tienda" else "Entrega a Domicilio"
  }

  /** Customer and delivery data, up to the products heading. */
  function HeaderLines(details: OrderDetails): seq<string> {
    [Title, TitleRule, "", "DATOS DEL CLIENTE:",
     "Nombre: " + details.customerName,
     "Teléfono: " + details.customerPhone, "",
     "DETALLES DE ENTREGA:",
     "Método: " + MethodText(details.deliveryType),
     "Fecha Solicitada: " + details.deliveryDate]
    + (if details.specialInstructions != "" then ["Instrucciones: " + details.specialInstructions] else [])
    + ["", "PRODUCTOS:"]
  }

  /** `item.selectedSubProducts && item.selectedSubProducts.length > 0`. */
  predicate HasSelection(item: CartItem) {
    item.selectedSubProducts.Some? && |item.selectedSubProducts.value| > 0
  }

  const SelectionPrefix: string := "  - Selección: "
  const MessagePrefix: string := "  - Mensaje: "

  function ItemTitle(item: CartItem): string {
    "* " + item.product.info.name + " (" + item.selectedTier.labelText + ")"
  }

  /** The lines of one cart line: rule, title, optional selection, optional message, price. */
  function ItemBlock(item: CartItem, fmt: int -> string): seq<string> {
    [ItemRule, ItemTitle(item)]
    + (if HasSelection(item) then [SelectionPrefix + Join(item.selectedSubProducts.value, ", ")] else [])
    + (if item.customizations.message != "" then [MessagePrefix + "\"" + item.customizations.message + "\""] else [])
    + ["  - Precio: $" + fmt(item.selectedTier.price)]
  }

  function ItemBlocks(items: seq<CartItem>, fmt: int -> string): seq<string> {
    if |items| == 0 then [] else ItemBlock(items[0], fmt) + ItemBlocks(items[1..], fmt)
  }

  function FooterLines(details: OrderDetails, fmt: int -> string): seq<string> {
    [ItemRule, "", "RESUMEN DE PAGO:",
     "Subtotal: $" + fmt(details.subtotal),
     "Costo de Envío: $" + fmt(details.shippingCost),
     "TOTAL A PAGAR: $" + fmt(details.total)]
  }

  function SummaryLines(details: OrderDetails, fmt: int -> string): seq<string> {
    HeaderLines(details) + ItemBlocks(details.items, fmt) + FooterLines(details, fmt)
  }

  predicate StartsWith(s: string, prefix: string) {
    |prefix| <= |s| && s[..|prefix|] == prefix
  }

  predicate EndsWith(s: string, suffix: string) {
    |suffix| <= |s| && s[|s| - |suffix|..] == suffix
  }

  /** `generateOrderSummaryText`: the text opens with the title and its rule and closes with the amount to pay. */
  function OrderSummaryText(details: OrderDetails, fmt: int -> string): (r: string)
    ensures StartsWith(r, Title + "\n" + TitleRule + "\n")
    ensures EndsWith(r, "TOTAL A PAGAR: $" + fmt(details.total) + "\n")
  {
    SummaryStartsWithTitle(details, fmt);
    SummaryEndsWithTotal(details, fmt);
    Render(SummaryLines(details, fmt))
  }

  /** The rendered lines always open with the title line and the rule under it. */
  lemma SummaryStartsWithTitle(details: OrderDetails, fmt: int -> string)
    ensures StartsWith(Render(SummaryLines(details, fmt)), Title + "\n" + TitleRule + "\n")
  {
    var lines := SummaryLines(details, fmt);
    assert lines == [Title, TitleRule] + lines[2..];
    RenderAppend([Title, TitleRule], lines[2..]);
    assert Render([Title, TitleRule]) == Title + "\n" + TitleRule + "\n" by {
      assert [Title, TitleRule][1..] == [TitleRule];
      assert Render([TitleRule]) == TitleRule + "\n" + Render([]);
    }
  }

  /** The rendered lines always close with the amount to pay. */
  lemma SummaryEndsWithTotal(details: OrderDetails, fmt: int -> string)
    ensures EndsWith(Render(SummaryLines(details, fmt)), "TOTAL A PAGAR: $" + fmt(details.total) + "\n")
  {
    var lines := SummaryLines(details, fmt);
    var last := "TOTAL A PAGAR: $" + fmt(details.total);
    assert lines == lines[..|lines| - 1] + [last];
    RenderAppend(lines[..|lines| - 1], [last]);
    assert Render([last]) == last + "\n" + Render([]);
  }

  /** The delivery method line names the store pickup or the home delivery. */
  lemma MethodLine(details: OrderDetails, fmt: int -> string)
    ensures details.deliveryType == Pickup ==> SummaryLines(details, fmt)[8] == "Método: Retiro en Tienda"
    ensures details.deliveryType == Delivery ==> SummaryLines(details, fmt)[8] == "Método: Entrega a Domicilio"
  {
    var h := HeaderLines(details);
    assert h[8] == "Método: " + MethodText(details.deliveryType);
    assert SummaryLines(details, fmt)[8] == h[8];
  }

  /** The instructions line is there exactly when the customer wrote instructions, and then it carries them. */
  lemma InstructionsLine(details: OrderDetails)
    ensures var h := HeaderLines(details);
      (exists i :: 0 <= i < |h| && StartsWith(h[i], "Instrucciones: ")) <==> details.specialInstructions != ""
    ensures details.specialInstructions != "" ==> HeaderLines(details)[10] == "Instrucciones: " + details.specialInstructions
  {
    var h := HeaderLines(details);
    if details.specialInstructions != "" {
      assert StartsWith(h[10], "Instrucciones: ");
    } else {
      forall i | 0 <= i < |h|
        ensures !StartsWith(h[i], "Instrucciones: ")
      {
        assert h[i] == "" || h[i][0] != 'I';
      }
    }
  }

  /** A product title line, recognised by its leading asterisk. */
  predicate IsTitleLine(line: string) {
    |line| > 0 && line[0] == '*'
  }

  function ItemTitles(items: seq<CartItem>): (r: seq<string>)
    ensures |r| == |items|
    ensures forall i :: 0 <= i < |items| ==> r[i] == ItemTitle(items[i])
  {
    if |items| == 0 then [] else [ItemTitle(items[0])] + ItemTitles(items[1..])
  }

  lemma BlockTitles(item: CartItem, fmt: int -> string)
    ensures Filter(ItemBlock(item, fmt), IsTitleLine) == [ItemTitle(item)]
  {
    var b := ItemBlock(item, fmt);
    assert b[0] == ItemRule && b[1] == ItemTitle(item);
    assert IsTitleLine(b[1]);
    assert !IsTitleLine(b[0]);
    var rest := b[2..];
    forall i | 0 <= i < |rest|
      ensures !IsTitleLine(rest[i])
    {
      assert rest[i][0] == ' ';
    }
    FilterNone(rest, IsTitleLine);
    assert b == [b[0], b[1]] + rest;
    FilterAppend([b[0], b[1]], rest, IsTitleLine);
    assert Filter([b[0], b[1]], IsTitleLine) == [b[1]] by {
      assert [b[0], b[1]][1..] == [b[1]];
      assert Filter([b[1]], IsTitleLine) == [b[1]] + Filter([b[1]][1..], IsTitleLine);
    }
  }

  lemma {:induction false} BlocksTitles(items: seq<CartItem>, fmt: int -> string)
    ensures Filter(ItemBlocks(items, fmt), IsTitleLine) == ItemTitles(items)
  {
    if |items| > 0 {
      BlocksTitles(items[1..], fmt);
      BlockTitles(items[0], fmt);
      FilterAppend(ItemBlock(items[0], fmt), ItemBlocks(items[1..], fmt), IsTitleLine);
    }
  }

  /** The product title lines of the summary are exactly one per cart line, in cart order. */
  lemma OneTitlePerItem(details: OrderDetails, fmt: int -> string)
    ensures Filter(SummaryLines(details, fmt), IsTitleLine) == ItemTitles(details.items)
  {
    var h := HeaderLines(details);
    var f := FooterLines(details, fmt);
    forall i | 0 <= i < |h|
      ensures !IsTitleLine(h[i])
    {
      assert h[i] == "" || h[i][0] != '*';
    }
    forall i | 0 <= i < |f|
      ensures !IsTitleLine(f[i])
    {
      assert f[i] == "" || f[i][0] != '*';
    }
    FilterNone(h, IsTitleLine);
    FilterNone(f, IsTitleLine);
    BlocksTitles(details.items, fmt);
    FilterAppend(h, ItemBlocks(details.items, fmt), IsTitleLine);
    FilterAppend(h + ItemBlocks(details.items, fmt), f, IsTitleLine);
  }

  /** A cart line's block has a selection line exactly when sub-products were chosen; the line lists them joined by ", ". */
  lemma SelectionLine(item: CartItem, fmt: int -> string)
    ensures var b := ItemBlock(item, fmt);
      (exists i :: 0 <= i < |b| && StartsWith(b[i], SelectionPrefix)) <==> HasSelection(item)
    ensures HasSelection(item) ==> ItemBlock(item, fmt)[2] == SelectionPrefix + Join(item.selectedSubProducts.value, ", ")
  {
    var b := ItemBlock(item, fmt);
    if HasSelection(item) {
      assert StartsWith(b[2], SelectionPrefix);
    } else {
      forall i | 0 <= i < |b|
        ensures !StartsWith(b[i], SelectionPrefix)
      {
        if i > 1 {
          assert b[i][4] != 'S';
        } else {
          assert b[i][0] != ' ';
        }
      }
    }
  }

  /** A cart line's block has a message line exactly when the message is non-empty; the line quotes it. */
  lemma MessageLine(item: CartItem, fmt: int -> string)
    ensures var b := ItemBlock(item, fmt);
      (exists i :: 0 <= i < |b| && StartsWith(b[i], MessagePrefix)) <==> item.customizations.message != ""
    ensures item.customizations.message != "" ==>
      ItemBlock(item, fmt)[if HasSelection(item) then 3 else 2] == MessagePrefix + "\"" + item.customizations.message + "\""
  {
    var b := ItemBlock(item, fmt);
    var k := if HasSelection(item) then 3 else 2;
    assert b[0] == ItemRule && b[1] == ItemTitle(item);
    if item.customizations.message != "" {
      assert StartsWith(b[k], MessagePrefix);
    } else {
      forall i | 0 <= i < |b|
        ensures !StartsWith(b[i], MessagePrefix)
      {
        if i > 1 {
          assert b[i][4] != 'M';
        } else {
          assert b[i][0] != ' ';
        }
      }
    }
  }

  /** `pedido_pastelicias_${customerName.replace(/\s/g, '_')}.txt`. */
  function DownloadFilename(customerName: string): (r: string)
    ensures |r| == |customerName| + 23
    ensures StartsWith(r, "pedido_pastelicias_")
    ensures forall i :: 0 <= i < |r| ==> !IsWhitespace(r[i])
  {
    var middle := ReplaceWhitespace(customerName, '_');
    var r := "pedido_pastelicias_" + middle + ".txt";
    assert forall i :: 19 <= i < 19 + |middle| ==> r[i] == middle[i - 19];
    r
  }

  /** The file name keeps every non-blank character of the customer's name in place and puts '_' for each blank one. */
  lemma FilenameKeepsName(customerName: string)
    ensures var r := DownloadFilename(customerName);
      forall i :: 0 <= i < |customerName| ==>
        r[19 + i] == (if IsWhitespace(customerName[i]) then '_' else customerName[i])
  {
    var middle := ReplaceWhitespace(customerName, '_');
    var r := "pedido_pastelicias_" + middle + ".txt";
    assert forall i :: 0 <= i < |middle| ==> r[19 + i] == middle[i];
  }
}

=== FILE: constants.dfy ===
/**
 * The seed catalog and option lists (constants.ts) as ground data, with the
 * invariants the rest of the storefront relies on: distinct product ids whose
 * maximum seeds the id generator, well-formed price tiers priced in steps of
 * 500, promotional-box candidates that resolve to existing products of the
 * right category, and option lists whose first entry is the default.
 */
module Constants {
  import opened Base
  import opened Types

  /** INITIAL_PRODUCTS: the catalog the application starts from, in display order. */
  const InitialProducts: seq<Product> := [
    Waffles,
    MiniDonas,
    Cakepops,
    Mashpops,
    MiniLemonPie,
    MiniFruitTarts,
    MiniBerlines,
    MiniCupcakes,
    MiniTacitasManjar,
    MiniCachitos,
    CheeseEmpanadas,
    HamCheeseEmpanadas,
    Tapaditos,
    MiniPizzas,
    MiniChaparritas,
    Canapes,
    MiniTacitaChoclo,
    Promo1,
    Promo2,
    Promo3,
    Promo4,
    SweetsBox50,
    CientoDulce,
    SavouryMixBox,
    CientoMixto
  ]

  const Waffles: Product :=
  Product(1, ProductInfo(
    "Waffles con Chocolate (Triángulos)",
    "Deliciosos mini waffles triangulares bañados en un rico chocolate de cobertura.",
    "Nuestros mini waffles son crujientes por fuera y suaves por dentro. Vienen bañados en un rico chocolate de cobertura y son perfectos para cualquier mesa dulce o evento especial.",
    7500,
    "https://images.pexels.com/photos/1326946/pexels-photo-1326946.jpeg?auto=compress&cs=tinysrgb&w=600",
    true, Dulce, Some(true),
    [Tier(30, 7500, "30 unidades"), Tier(50, 10000, "50 unidades"), Tier(100, 18000, "100 unidades")],
    None))

  const MiniDonas: Product :=
  Product(2, ProductInfo(
    "Mini Donas",
    "Pequeñas y esponjosas donas con glaseados y chispas de colores vibrantes.",
    "Una selección irresistible de mini donas, perfectas para alegrar cualquier momento. Vienen en una variedad de sabores y decoraciones para satisfacer todos los gustos.",
    7000,
    "https://images.pexels.com/photos/867470/pexels-photo-867470.jpeg?auto=compress&cs=tinysrgb&w=600",
    true, Dulce, Some(true),
    [Tier(25, 7000, "25 unidades"), Tier(50, 12000, "50 unidades"), Tier(100, 18000, "100 unidades")],
    None))

  const Cakepops: Product :=
  Product(3, ProductInfo(
    "Cakepops",
    "Bocados de bizcocho de chocolate cubiertos y decorados, ideales para fiestas.",
    "Nuestros cakepops combinan un tierno bizcocho de chocolate con una cobertura crujiente. Cada uno está cuidadosamente decorado a mano para ser el centro de atención.",
    7000,
    "https://images.pexels.com/photos/5119528/pexels-photo-5119528.jpeg?auto=compress&cs=tinysrgb&w=600",
    true, Dulce, None,
    [Tier(24, 7000, "24 unidades"), Tier(48, 13000, "48 unidades"), Tier(100, 22000, "100 unidades")],
    None))

  const Mashpops: Product :=
  Product(4, ProductInfo(
    "Mashpops",
    "Suaves malvaviscos bañados en chocolate y decorados con chispas de colores.",
    "Una golosina divertida y deliciosa que encanta a niños y adultos. La combinación perfecta de la suavidad del malvavisco con el rico sabor del chocolate.",
    7500,
    "https://images.pexels.com/photos/1038935/pexels-photo-1038935.jpeg?auto=compress&cs=tinysrgb&w=600",
    true, Dulce, None,
    [Tier(30, 7500, "30 unidades"), Tier(60, 14000, "60 unidades"), Tier(100, 21000, "100 unidades")],
    None))

  const MiniLemonPie: Product :=
  Product(5, ProductInfo(
    "Mini Pie de Limón",
    "El equilibrio perfecto entre el ácido del limón y el dulce del merengue.",
    "Disfruta del sabor clásico del pie de limón en un formato individual. Base de galleta crujiente, relleno de crema de limón y una corona de merengue suave.",
    12000,
    "https://images.pexels.com/photos/7968033/pexels-photo-7968033.jpeg?auto=compress&cs=tinysrgb&w=600",
    true, Dulce, None,
    [Tier(40, 12000, "40 unidades"), Tier(80, 20000, "80 unidades"), Tier(100, 23000, "100 unidades")],
    None))

  const MiniFruitTarts: Product :=
  Product(6, ProductInfo(
    "Mini Tartaletas de Fruta",
    "Pequeñas tartaletas rellenas de crema pastelera y cubiertas con fruta fresca.",
    "Un bocado fresco y elegante. Nuestras mini tartaletas tienen una base crujiente, un corazón de crema pastelera suave y están decoradas con frutas de temporada.",
    12000,
    "https://images.pexels.com/photos/135127/pexels-photo-135127.jpeg?auto=compress&cs=tinysrgb&w=600",
    true, Dulce, None,
    [Tier(40, 12000, "40 unidades"), Tier(80, 20000, "80 unidades"), Tier(100, 23000, "100 unidades")],
    None))

  const MiniBerlines: Product :=
  Product(7, ProductInfo(
    "Mini Berlines",
    "Esponjosos y azucarados, rellenos de una deliciosa crema pastelera o manjar.",
    "Tiernos y esponjosos, nuestros mini berlines están generosamente espolvoreados con azúcar flor y esconden un delicioso relleno casero.",
    7000,
    "https://images.pexels.com/photos/8968233/pexels-photo-8968233.jpeg?auto=compress&cs=tinysrgb&w=600",
    true, Dulce, None,
    [Tier(25, 7000, "25 unidades"), Tier(50, 14000, "50 unidades"), Tier(100, 25000, "100 unidades")],
    None))

  const MiniCupcakes: Product :=
  Product(8, ProductInfo(
    "Mini Cupcakes",
    "Pequeños y esponjosos cupcakes con frosting de colores y sabores surtidos.",
    "La base perfecta para cualquier celebración. Mini cupcakes de vainilla o chocolate con un suave frosting de crema, decorados para la ocasión.",
    7000,
    "https://images.pexels.com/photos/1055271/pexels-photo-1055271.jpeg?auto=compress&cs=tinysrgb&w=600",
    true, Dulce, None,
    [Tier(25, 7000, "25 unidades"), Tier(50, 12000, "50 unidades")],
    None))

  const MiniTacitasManjar: Product :=
  Product(9, ProductInfo(
    "Mini Tacitas Manjar Nuez",
    "Delicadas masitas horneadas rellenas con una clásica mezcla de manjar y nuez.",
    "Un clásico de la repostería chilena. Pequeñas y delicadas masitas horneadas, rellenas de manjar de campo y nueces seleccionadas.",
    12000,
    "https://images.pexels.com/photos/1854037/pexels-photo-1854037.jpeg?auto=compress&cs=tinysrgb&w=600",
    true, Dulce, None,
    [Tier(40, 12000, "40 unidades"), Tier(80, 20000, "80 unidades")],
    None))

  const MiniCachitos: Product :=
  Product(10, ProductInfo(
    "Mini Cachitos",
    "Crujientes cachitos de hojaldre rellenos de manjar (dulce de leche).",
    "Una delicia tradicional que no puede faltar. Crujiente masa de hojaldre horneada a la perfección y rellena generosamente con el más cremoso manjar.",
    8000,
    "https://images.pexels.com/photos/827513/pexels-photo-827513.jpeg?auto=compress&cs=tinysrgb&w=600",
    true, Dulce, None,
    [Tier(30, 8000, "30 unidades"), Tier(60, 15000, "60 unidades")],
    None))

  const CheeseEmpanadas: Product :=
  Product(11, ProductInfo(
    "Mini Empanadas de Queso",
    "Clásicas y deliciosas, el bocado salado que no puede faltar en tu evento.",
    "Crujientes y rellenas de queso derretido. Nuestras mini empanadas son horneadas a la perfección y son el complemento salado ideal para cualquier celebración.",
    17000,
    "https://images.pexels.com/photos/3599233/pexels-photo-3599233.jpeg?auto=compress&cs=tinysrgb&w=600",
    true, Salado, None,
    [Tier(50, 17000, "50 unidades"), Tier(100, 30000, "100 unidades")],
    None))

  const HamCheeseEmpanadas: Product :=
  Product(12, ProductInfo(
    "Mini Empanadas Jamón Queso",
    "La combinación perfecta de jamón y queso en una masa crujiente.",
    "Un clásico irresistible. Mini empanadas horneadas rellenas de jamón pierna y queso fundido, perfectas para cualquier ocasión.",
    17000,
    "https://images.pexels.com/photos/114670/pexels-photo-114670.jpeg?auto=compress&cs=tinysrgb&w=600",
    true, Salado, None,
    [Tier(50, 17000, "50 unidades"), Tier(100, 30000, "100 unidades")],
    None))

  const Tapaditos: Product :=
  Product(13, ProductInfo(
    "Tapaditos",
    "Pequeños sándwiches en pan suave. Elige entre churrasco luco o lechuga-tomate-mayo.",
    "Una selección de tapaditos clásicos en pan de miga suave. Ideales para cualquier cóctel, con rellenos frescos y sabrosos para todos los gustos.",
    17000,
    "https://images.pexels.com/photos/806361/pexels-photo-806361.jpeg?auto=compress&cs=tinysrgb&w=600",
    true, Salado, None,
    [Tier(25, 17000, "25 unidades"), Tier(50, 30000, "50 unidades")],
    None))

  const MiniPizzas: Product :=
  Product(14, ProductInfo(
    "Mini Pizzas",
    "Bases de masa esponjosa con salsa de tomate, queso y orégano.",
    "El sabor de la pizza en un bocado. Nuestras mini pizzas son perfectas para eventos, con una base de masa tierna, salsa de tomate casera y abundante queso.",
    9500,
    "https://images.pexels.com/photos/845811/pexels-photo-845811.jpeg?auto=compress&cs=tinysrgb&w=600",
    true, Salado, None,
    [Tier(25, 9500, "25 unidades"), Tier(50, 17500, "50 unidades"), Tier(100, 30000, "100 unidades")],
    None))

  const MiniChaparritas: Product :=
  Product(15, ProductInfo(
    "Mini Chaparritas",
    "Crujientes salchichas envueltas en masa horneada, un clásico irresistible.",
    "Las favoritas de todos. Mini salchichas de alta calidad envueltas en una masa suave y dorada, horneadas hasta la perfección. Se sirven calientes y deliciosas.",
    9000,
    "https://images.pexels.com/photos/14876646/pexels-photo-14876646.jpeg?auto=compress&cs=tinysrgb&w=600",
    true, Salado, None,
    [Tier(25, 9000, "25 unidades"), Tier(50, 14000, "50 unidades"), Tier(100, 23000, "100 unidades")],
    None))

  const Canapes: Product :=
  Product(16, ProductInfo(
    "Canapés",
    "Elegantes bocadillos con combinaciones de sabores gourmet. 2 o 3 variedades.",
    "Eleva tu evento con nuestros canapés premium. Variedades como ave-mayo-pimentón, lomito-atún-mayo-orégano y queso Philadelphia-tomate-ciboulette.",
    16000,
    "https://images.pexels.com/photos/5638732/pexels-photo-5638732.jpeg?auto=compress&cs=tinysrgb&w=600",
    true, Salado, None,
    [Tier(50, 16000, "50 unidades (2 varied.)"), Tier(100, 28000, "100 unidades (3 varied.)")],
    None))

  const MiniTacitaChoclo: Product :=
  Product(17, ProductInfo(
    "Mini Tacita Choclo",
    "Suaves masitas rellenas con una cremosa pasta de choclo.",
    "Un bocado tradicional y delicioso. Pequeñas masitas horneadas con un relleno cremoso de pasta de choclo, un sabor casero que sorprende.",
    15000,
    "https://images.pexels.com/photos/4109128/pexels-photo-4109128.jpeg?auto=compress&cs=tinysrgb&w=600",
    true, Salado, None,
    [Tier(50, 15000, "50 unidades"), Tier(100, 28000, "100 unidades")],
    None))

  const Promo1: Product :=
  Product(20, ProductInfo(
    "PROMO 1",
    "Un surtido dulce completo y predefinido para tus celebraciones.",
    "¡La combinación ideal para satisfacer a todos! Esta promoción incluye un surtido fijo de 120 unidades: 40 mini cupcakes, 40 mini donas, 20 mashpops y 20 cakepops. No es personalizable.",
    22000,
    "https://images.pexels.com/photos/1055272/pexels-photo-1055272.jpeg?auto=compress&cs=tinysrgb&w=600",
    true, Promocion, Some(true),
    [Tier(120, 22000, "Total 120 unidades")],
    None))

  const Promo2: Product :=
  Product(21, ProductInfo(
    "PROMO 2",
    "El doble de dulzura para eventos más grandes. 240 unidades fijas.",
    "Para celebraciones en grande. Esta promoción incluye un surtido fijo de 240 unidades: 80 mini cupcakes, 80 mini donas, 40 mashpops y 40 cakepops. No es personalizable.",
    40000,
    "https://images.pexels.com/photos/2144112/pexels-photo-2144112.jpeg?auto=compress&cs=tinysrgb&w=600",
    true, Promocion, None,
    [Tier(240, 40000, "Total 240 unidades")],
    None))

  const Promo3: Product :=
  Product(22, ProductInfo(
    "PROMO 3 (Dulce a Elección)",
    "100 unidades: elige 4 o 5 de tus variedades dulces favoritas.",
    "Arma tu caja dulce perfecta eligiendo hasta 5 variedades de nuestra selección. Ideal para personalizar tu mesa de postres o para regalar una experiencia única.",
    30000,
    "https://images.pexels.com/photos/2067423/pexels-photo-2067423.jpeg?auto=compress&cs=tinysrgb&w=600",
    true, Promocion, Some(true),
    [Tier(100, 30000, "100 unidades a elección")],
    Some(SelectableProducts(5, [8, 2, 6, 5, 3, 4, 7, 9, 10]))))

  const Promo4: Product :=
  Product(23, ProductInfo(
    "PROMO 4 (Salado a Elección)",
    "100 unidades: elige 4 o 5 de tus variedades saladas favoritas.",
    "Personaliza tu cóctel con nuestra promoción salada. Elige hasta 5 de tus productos favoritos y nosotros preparamos una bandeja surtida de 100 unidades para tu evento.",
    40000,
    "https://images.pexels.com/photos/262959/pexels-photo-262959.jpeg?auto=compress&cs=tinysrgb&w=600",
    true, Promocion, Some(true),
    [Tier(100, 40000, "100 unidades a elección")],
    Some(SelectableProducts(5, [11, 12, 13, 14, 15, 16, 17]))))

  const SweetsBox50: Product :=
  Product(24, ProductInfo(
    "Cajita 50 Mini Pastelitos Surtidos",
    "Una selección variada de nuestros mejores mini pastelitos dulces.",
    "La opción perfecta para un antojo o un pequeño detalle. Incluye un surtido de 50 mini pastelitos seleccionados por nosotros, incluyendo donas, cupcakes, pie de limón y tartaletas.",
    10000,
    "https://images.pexels.com/photos/1721934/pexels-photo-1721934.jpeg?auto=compress&cs=tinysrgb&w=600",
    true, Promocion, None,
    [Tier(50, 10000, "50 unidades surtidas")],
    None))

  const CientoDulce: Product :=
  Product(25, ProductInfo(
    "Ciento Dulce (4 Variedades)",
    "Una selección fija de 100 delicias dulces a un precio especial.",
    "Un clásico que nunca falla. 100 unidades de nuestras 4 variedades más populares: mini cupcakes, mini donas, mini pie de limón y mini tartaletas.",
    18000,
    "https://images.pexels.com/photos/140831/pexels-photo-140831.jpeg?auto=compress&cs=tinysrgb&w=600",
    true, Promocion, None,
    [Tier(100, 18000, "100 unidades fijas")],
    None))

  const SavouryMixBox: Product :=
  Product(26, ProductInfo(
    "Cajita Mixta Salada",
    "Un surtido fijo de nuestros mejores bocados salados.",
    "La solución perfecta para tu picoteo. Incluye un surtido de canapés, mini empanadas de queso, chaparritas, mini pizzas y mini tacitas de choclo.",
    15000,
    "https://images.pexels.com/photos/106343/pexels-photo-106343.jpeg?auto=compress&cs=tinysrgb&w=600",
    true, Promocion, None,
    [Tier(50, 15000, "50 unidades"), Tier(100, 25000, "100 unidades")],
    None))

  const CientoMixto: Product :=
  Product(27, ProductInfo(
    "Ciento Mixto (50 Dulce y 50 Salado)",
    "Lo mejor de ambos mundos: 50 bocados dulces y 50 salados.",
    "¿Por qué elegir? Disfruta de una selección equilibrada. Incluye: DULCE (mini donas, mini cupcakes, mini pie, mini tartaletas) y SALADO (canapés, mini empanada queso, chaparrita, mini pizza, mini tacita choclo).",
    23000,
    "https://images.pexels.com/photos/1633572/pexels-photo-1633572.jpeg?auto=compress&cs=tinysrgb&w=600",
    true, Promocion, None,
    [Tier(100, 23000, "50 dulces y 50 salados")],
    None))

  const InitialCustomizationOptions: CustomizationCollection := PerGroup(
    ["Surtidos", "Vainilla", "Chocolate", "Red Velvet"],
    ["Surtidos", "Crema Pastelera", "Dulce de Leche", "Ganache de Chocolate"],
    ["Surtidos", "Rosado Pastel", "Azul Cielo", "Blanco Clásico"])

  /** The id of the last seed product, which is also the largest. */
  const MaxSeedId: int := 27

  /** Product ids are strictly increasing along the list. */
  predicate IdsIncreasing(ps: seq<Product>) {
    forall i :: 0 <= i < |ps| - 1 ==> ps[i].id < ps[i + 1].id
  }

  /** Ids that increase between neighbours are pairwise distinct, and each is below every later one. */
  lemma {:induction false} IncreasingIdsAreDistinct(ps: seq<Product>)
    requires IdsIncreasing(ps)
    ensures forall i, j :: 0 <= i < j < |ps| ==> ps[i].id < ps[j].id
    ensures DistinctIds(ps)
  {
    if |ps| > 1 {
      IncreasingIdsAreDistinct(ps[1..]);
      forall i, j | 0 <= i < j < |ps|
        ensures ps[i].id < ps[j].id
      {
        if i > 0 {
          assert ps[i] == ps[1..][i - 1] && ps[j] == ps[1..][j - 1];
        } else if j > 1 {
          assert ps[1] == ps[1..][0] && ps[j] == ps[1..][j - 1];
        }
      }
    }
  }

  /** The seed ids are pairwise distinct and 27 is the largest of them. */
  lemma SeedIds()
    ensures DistinctIds(InitialProducts)
    ensures IdsAtMost(InitialProducts, MaxSeedId)
    ensures HasId(InitialProducts, MaxSeedId)
  {
    assert IdsIncreasing(InitialProducts);
    IncreasingIdsAreDistinct(InitialProducts);
    assert InitialProducts[24].id == MaxSeedId;
  }

  /** Tier quantities and prices both strictly increase from one tier to the next. */
  predicate TiersIncreasing(tiers: seq<Tier>) {
    forall k :: 0 <= k < |tiers| - 1 ==> tiers[k].quantity < tiers[k + 1].quantity && tiers[k].price < tiers[k + 1].price
  }

  /** The pricing shape of every seed product. */
  predicate WellPriced(p: ProductInfo) {
    && |p.priceTiers| > 0
    && p.price == p.priceTiers[0].price
    && TiersIncreasing(p.priceTiers)
    && forall k :: 0 <= k < |p.priceTiers| ==> p.priceTiers[k].price > 0 && p.priceTiers[k].price % 500 == 0
  }

  /** Strictly increasing quantities are distinct. */
  lemma {:induction false} IncreasingQuantitiesAreDistinct(tiers: seq<Tier>)
    requires TiersIncreasing(tiers)
    ensures forall k, l :: 0 <= k < l < |tiers| ==> tiers[k].quantity < tiers[l].quantity
    ensures DistinctQuantities(tiers)
  {
    if |tiers| > 1 {
      IncreasingQuantitiesAreDistinct(tiers[1..]);
      forall k, l | 0 <= k < l < |tiers|
        ensures tiers[k].quantity < tiers[l].quantity
      {
        if k > 0 {
          assert tiers[k] == tiers[1..][k - 1] && tiers[l] == tiers[1..][l - 1];
        } else if l > 1 {
          assert tiers[1] == tiers[1..][0] && tiers[l] == tiers[1..][l - 1];
        }
      }
    }
  }

  /** Every seed product has tiers, starts at its first tier's price, and climbs in steps of 500. */
  lemma SeedPricing()
    ensures forall i :: 0 <= i < |InitialProducts| ==> WellPriced(InitialProducts[i].info)
    ensures forall i :: 0 <= i < |InitialProducts| ==> DistinctQuantities(InitialProducts[i].info.priceTiers)
  {
    SeedStartingPrices();
    SeedTiersIncrease();
    SeedTierPriceSteps();
    forall i | 0 <= i < |InitialProducts|
      ensures DistinctQuantities(InitialProducts[i].info.priceTiers)
    {
      IncreasingQuantitiesAreDistinct(InitialProducts[i].info.priceTiers);
    }
  }

  lemma SeedStartingPrices()
    ensures forall i :: 0 <= i < |InitialProducts| ==>
      |InitialProducts[i].info.priceTiers| > 0 && InitialProducts[i].info.price == InitialProducts[i].info.priceTiers[0].price
  {
  }

  lemma SeedTiersIncrease()
    ensures forall i :: 0 <= i < |InitialProducts| ==> TiersIncreasing(InitialProducts[i].info.priceTiers)
  {
  }

  lemma SeedTierPriceSteps()
    ensures forall i :: 0 <= i < |InitialProducts| ==> forall k :: 0 <= k < |InitialProducts[i].info.priceTiers| ==>
      InitialProducts[i].info.priceTiers[k].price > 0 && InitialProducts[i].info.priceTiers[k].price % 500 == 0
  {
  }

  /**
   * The promotional-box invariant: candidate ids are distinct, resolve to
   * products of the list, never name the box itself, and the selection cap is
   * a non-negative number no larger than the candidate count.
   */
  predicate CandidatesValid(ps: seq<Product>, p: Product) {
    p.info.selectableProducts.Some? ==>
      var sp := p.info.selectableProducts.value;
      && 0 <= sp.maxSelections <= |sp.productIds|
      && (forall k, l :: 0 <= k < l < |sp.productIds| ==> sp.productIds[k] != sp.productIds[l])
      && (forall k :: 0 <= k < |sp.productIds| ==> HasId(ps, sp.productIds[k]) && sp.productIds[k] != p.id)
  }

  /** Every candidate of the box resolves to a product of category `c`. */
  predicate CandidatesInCategory(ps: seq<Product>, p: Product, c: Category) {
    p.info.selectableProducts.Some? &&
    forall k :: 0 <= k < |p.info.selectableProducts.value.productIds| ==>
      var found := FindProduct(ps, p.info.selectableProducts.value.productIds[k]);
      found.Some? && found.value.info.category == c
  }

  /** The seed ids 1 to 17 sit at positions 0 to 16. */
  lemma SeedLowIdPositions()
    ensures forall i :: 0 <= i < 17 ==> InitialProducts[i].id == i + 1
  {
  }

  /** Only PROMO 3 (position 19) and PROMO 4 (position 20) are build-your-own boxes. */
  lemma SeedBoxes()
    ensures InitialProducts[19] == Promo3 && InitialProducts[20] == Promo4
    ensures forall i :: 0 <= i < |InitialProducts| && i != 19 && i != 20 ==> InitialProducts[i].info.selectableProducts.None?
  {
  }

  /** Both boxes of the seed catalog satisfy the candidate invariant; PROMO 3 draws on sweets, PROMO 4 on savouries. */
  lemma SeedPromotions()
    ensures forall i :: 0 <= i < |InitialProducts| ==> CandidatesValid(InitialProducts, InitialProducts[i])
    ensures CandidatesInCategory(InitialProducts, Promo3, Dulce)
    ensures CandidatesInCategory(InitialProducts, Promo4, Salado)
  {
    SeedBoxes();
    SweetBox();
    SavouryBox();
  }

  /** The first ten seed products are the sweets and the next seven the savouries. */
  lemma SeedCategoryPositions()
    ensures forall i :: 0 <= i < 10 ==> InitialProducts[i].info.category == Dulce
    ensures forall i :: 10 <= i < 17 ==> InitialProducts[i].info.category == Salado
  {
  }

  lemma SweetBox()
    ensures CandidatesValid(InitialProducts, Promo3)
    ensures CandidatesInCategory(InitialProducts, Promo3, Dulce)
  {
    var sp := Promo3.info.selectableProducts.value;
    assert sp == SelectableProducts(5, [8, 2, 6, 5, 3, 4, 7, 9, 10]);
    SeedIds();
    SeedLowIdPositions();
    SeedCategoryPositions();
    BoxOverPositions(InitialProducts, Promo3, 0, 10, Dulce);
  }

  lemma SavouryBox()
    ensures CandidatesValid(InitialProducts, Promo4)
    ensures CandidatesInCategory(InitialProducts, Promo4, Salado)
  {
    var sp := Promo4.info.selectableProducts.value;
    assert sp == SelectableProducts(5, [11, 12, 13, 14, 15, 16, 17]);
    SeedIds();
    SeedLowIdPositions();
    SeedCategoryPositions();
    BoxOverPositions(InitialProducts, Promo4, 10, 17, Salado);
  }

  /**
   * A box whose candidates are distinct ids of a block of products of one
   * category (the product at position i carrying id i + 1) satisfies the
   * candidate invariant and draws only on that category.
   */
  lemma BoxOverPositions(ps: seq<Product>, p: Product, lo: int, hi: int, c: Category)
    requires DistinctIds(ps) && 0 <= lo <= hi <= |ps|
    requires forall i :: lo <= i < hi ==> ps[i].id == i + 1 && ps[i].info.category == c
    requires p.info.selectableProducts.Some?
    requires var ids := p.info.selectableProducts.value.productIds;
      && 0 <= p.info.selectableProducts.value.maxSelections <= |ids|
      && (forall k, l :: 0 <= k < l < |ids| ==> ids[k] != ids[l])
      && (forall k :: 0 <= k < |ids| ==> lo < ids[k] <= hi && ids[k] != p.id)
    ensures CandidatesValid(ps, p)
    ensures CandidatesInCategory(ps, p, c)
  {
    var ids := p.info.selectableProducts.value.productIds;
    forall k | 0 <= k < |ids|
      ensures HasId(ps, ids[k])
      ensures FindProduct(ps, ids[k]) == Some(ps[ids[k] - 1])
    {
      FindDistinct(ps, ids[k] - 1);
    }
  }

  /** In a list with distinct ids, looking up the id at position `i` finds that very product. */
  lemma FindDistinct(ps: seq<Product>, i: int)
    requires DistinctIds(ps) && 0 <= i < |ps|
    ensures FindProduct(ps, ps[i].id) == Some(ps[i])
  {
    var r := FindProduct(ps, ps[i].id);
    var j :| 0 <= j < |ps| && ps[j] == r.value;
  }

  /** A usable option list: non-empty, free of duplicates, with 'Surtidos' first. */
  predicate ValidOptionList(l: seq<string>) {
    && |l| > 0
    && l[0] == "Surtidos"
    && forall a, b :: 0 <= a < b < |l| ==> l[a] != l[b]
  }

  /** The three seed option lists are usable, so the modal's first-entry defaults exist. */
  lemma SeedOptions()
    ensures forall g :: ValidOptionList(InitialCustomizationOptions.Get(g))
  {
  }
}

=== FILE: header.dfy ===
/**
 * The site header (components/Header.tsx): which navigation link is
 * highlighted, who sees the Admin link, the session control and the cart
 * badge.
 */
module Header {
  import opened Types
  import Store

  /**
   * `isActive`: the home link matches both `#` and `#/`, every other link
   * only its own hash. A link is lit on its own page, and a lit link always
   * leads to the page the router is showing.
   */
  function IsActive(href: string, currentPage: string): (r: bool)
    ensures href == currentPage ==> r
    ensures r ==> Store.RenderPage(currentPage) == Store.RenderPage(href)
  {
    if href == "#" then currentPage == "#" || currentPage == "#/" else currentPage == href
  }

  /** The Admin link is offered to administrators and super-administrators only. */
  predicate ShowsAdminLink(role: UserRole) {
    role == Admin || role == SuperAdmin
  }

  /** The navigation links, in order. */
  function NavLinks(role: UserRole): (r: seq<string>)
    ensures |r| == (if role == Admin || role == SuperAdmin then 4 else 3)
    ensures r[..3] == ["#", "#catalog", "#contact"]
    ensures "#admin" in r <==> role == Admin || role == SuperAdmin
  {
    ["#", "#catalog", "#contact"] + (if ShowsAdminLink(role) then ["#admin"] else [])
  }

  /** A customer sees the login link; staff see their role and a logout button. */
  predicate ShowsLoginLink(role: UserRole) {
    role == Customer
  }

  /** The session corner and the Admin link never disagree: a visitor sees exactly one of the login link and the Admin link. */
  lemma LoginOrAdmin(role: UserRole)
    ensures ShowsLoginLink(role) <==> "#admin" !in NavLinks(role)
  {
  }

  /** The number badge on the cart button. */
  predicate ShowsCartBadge(cartItemCount: int) {
    cartItemCount > 0
  }

  /**
   * At most one link is highlighted, and a highlighted link names the page
   * the router shows. The home link is lit exactly on `#` and `#/`; any other
   * hash the router sends to the home page lights no link at all.
   */
  lemma ActiveLinkMatchesRoute(role: UserRole, currentPage: string)
    ensures forall i, j :: 0 <= i < j < |NavLinks(role)| ==> !(IsActive(NavLinks(role)[i], currentPage) && IsActive(NavLinks(role)[j], currentPage))
    ensures IsActive("#", currentPage) <==> currentPage == "#" || currentPage == "#/"
    ensures Store.RenderPage(currentPage) == Store.HomePage && currentPage != "#" && currentPage != "#/" ==>
      forall i :: 0 <= i < |NavLinks(role)| ==> !IsActive(NavLinks(role)[i], currentPage)
    ensures IsActive("#", currentPage) ==> Store.RenderPage(currentPage) == Store.HomePage
    ensures IsActive("#catalog", currentPage) <==> Store.RenderPage(currentPage) == Store.CatalogPage
    ensures IsActive("#contact", currentPage) <==> Store.RenderPage(currentPage) == Store.ContactPage
    ensures IsActive("#admin", currentPage) <==> Store.RenderPage(currentPage) == Store.AdminPage
  {
  }

  /**
   * The header's badge counts tier quantities, not lines: it shows exactly
   * for a non-empty cart when every line's quantity is positive, as in the
   * seed catalog. A tier the admin form left at quantity 0 breaks this; see
   * ZeroQuantityHidesBadge.
   */
  lemma BadgeMatchesCart(cart: seq<CartItem>)
    requires forall i :: 0 <= i < |cart| ==> cart[i].selectedTier.quantity > 0
    ensures ShowsCartBadge(Store.CartItemCount(cart)) <==> cart != []
  {
    if cart != [] {
      assert cart == [cart[0]] + cart[1..];
      assert Store.CartItemCount(cart) == cart[0].selectedTier.quantity + Store.CartItemCount(cart[1..]);
    }
  }

  /**
   * A cart whose lines all carry a quantity-0 tier (the blank tier the admin
   * form starts with and `addTier` appends) shows no header badge, however
   * many lines it holds.
   */
  lemma {:induction false} ZeroQuantityHidesBadge(cart: seq<CartItem>)
    requires forall i :: 0 <= i < |cart| ==> cart[i].selectedTier.quantity == 0
    ensures Store.CartItemCount(cart) == 0
    ensures !ShowsCartBadge(Store.CartItemCount(cart))
  {
    if cart != [] {
      assert cart == [cart[0]] + cart[1..];
      ZeroQuantityHidesBadge(cart[1..]);
      assert Store.CartItemCount(cart) == cart[0].selectedTier.quantity + Store.CartItemCount(cart[1..]);
    }
  }
}

=== FILE: modal.dfy ===
/**
 * The product-detail dialog (components/ProductModal.tsx): its initial tier
 * and customization state, the field-wise customization update, the tier
 * radio group and the hand-off to the cart.
 */
module Modal {
  import opened Base
  import opened Types
  import Store
  import Constants

  /** The `maxLength` of the personal-message input. */
  const MessageMaxLength: nat := 30

  /** The state of an open dialog. */
  datatype ModalState = ModalState(product: Product, selectedTier: Tier, customizations: Customizations)

  /** `list[0]`, with the `undefined` of an empty list read as the empty text. */
  function FirstOrBlank(list: seq<string>): (r: string)
    ensures |list| > 0 ==> r == list[0]
    ensures |list| == 0 ==> r == ""
  {
    if |list| > 0 then list[0] else ""
  }

  /**
   * Opening the dialog: the first tier is selected, each list's first entry
   * is chosen and the message is blank. A product without tiers cannot be
   * shown (the dialog reads the selected tier's price on render).
   */
  function OpenModal(product: Product, options: CustomizationCollection): (r: Option<ModalState>)
    ensures r.None? <==> |product.info.priceTiers| == 0
    ensures r.Some? ==> r.value.product == product && r.value.selectedTier == product.info.priceTiers[0]
    ensures r.Some? ==> r.value.customizations == Customizations(FirstOrBlank(options.flavors), FirstOrBlank(options.fillings), FirstOrBlank(options.colors), "")
  {
    if |product.info.priceTiers| == 0 then None
    else Some(ModalState(product, product.info.priceTiers[0], Customizations(FirstOrBlank(options.flavors), FirstOrBlank(options.fillings), FirstOrBlank(options.colors), "")))
  }

  /** What the browser lets into an input with a `maxLength`: at most that many characters, from the front. */
  function ClampToMaxLength(value: string, max: nat): (r: string)
    ensures |r| <= max && r <= value
    ensures |value| <= max ==> r == value
  {
    if |value| <= max then value else value[..max]
  }

  /** `handleCustomizationChange`: the named field takes the new value, the other three keep theirs. */
  function ChangeCustomization(c: Customizations, field: CustomizationField, value: string): (r: Customizations)
    ensures field == Flavor ==> r == c.(flavor := value)
    ensures field == Filling ==> r == c.(filling := value)
    ensures field == Color ==> r == c.(color := value)
    ensures field == Message ==> r == c.(message := ClampToMaxLength(value, MessageMaxLength))
  {
    match field
    case Flavor => c.(flavor := value)
    case Filling => c.(filling := value)
    case Color => c.(color := value)
    case Message => c.(message := ClampToMaxLength(value, MessageMaxLength))
  }

  /** Reads one customization field. */
  function FieldValue(c: Customizations, field: CustomizationField): string {
    match field
    case Flavor => c.flavor
    case Filling => c.filling
    case Color => c.color
    case Message => c.message
  }

  /** A change writes the field it names and no other; reading it back gives the value as accepted by the input. */
  lemma ChangeIsFieldWise(c: Customizations, field: CustomizationField, value: string)
    ensures forall other :: other != field ==> FieldValue(ChangeCustomization(c, field, value), other) == FieldValue(c, other)
    ensures field != Message ==> FieldValue(ChangeCustomization(c, field, value), field) == value
    ensures field == Message && |value| <= MessageMaxLength ==> FieldValue(ChangeCustomization(c, field, value), field) == value
  {
  }

  /** A radio button is checked exactly when its quantity equals the selected tier's. */
  predicate TierChecked(s: ModalState, tier: Tier) {
    s.selectedTier.quantity == tier.quantity
  }

  /** Clicking a tier's radio button selects that tier. */
  function SelectTier(s: ModalState, tier: Tier): (r: ModalState)
    ensures r.selectedTier == tier && TierChecked(r, tier)
    ensures r.product == s.product && r.customizations == s.customizations
  {
    s.(selectedTier := tier)
  }

  /** What every reachable dialog state satisfies: the selected tier is one of the product's, and the message fits. */
  predicate Valid(s: ModalState) {
    s.selectedTier in s.product.info.priceTiers && |s.customizations.message| <= MessageMaxLength
  }

  /** Opening the dialog gives a valid state. */
  lemma OpenIsValid(product: Product, options: CustomizationCollection)
    requires |product.info.priceTiers| > 0
    ensures OpenModal(product, options).Some? && Valid(OpenModal(product, options).value)
  {
  }

  /** Every event of the dialog keeps it valid: a customization change, and a click on one of the product's tiers. */
  lemma EventsKeepValid(s: ModalState, field: CustomizationField, value: string, i: int)
    requires Valid(s)
    requires 0 <= i < |s.product.info.priceTiers|
    ensures Valid(s.(customizations := ChangeCustomization(s.customizations, field, value)))
    ensures Valid(SelectTier(s, s.product.info.priceTiers[i]))
  {
  }

  /** With distinct quantities a valid dialog has exactly one checked radio button. */
  lemma ExactlyOneChecked(s: ModalState)
    requires Valid(s) && DistinctQuantities(s.product.info.priceTiers)
    ensures exists i :: 0 <= i < |s.product.info.priceTiers| && TierChecked(s, s.product.info.priceTiers[i])
    ensures forall i, j ::
      0 <= i < |s.product.info.priceTiers| && 0 <= j < |s.product.info.priceTiers| &&
      TierChecked(s, s.product.info.priceTiers[i]) && TierChecked(s, s.product.info.priceTiers[j])
      ==> i == j
  {
    var tiers := s.product.info.priceTiers;
    var k :| 0 <= k < |tiers| && tiers[k] == s.selectedTier;
    assert TierChecked(s, tiers[k]);
  }

  /** `handleSubmit`: the product, tier and customizations as they stand. */
  function Submit(s: ModalState): (r: (Product, Tier, Customizations))
    ensures r.0 == s.product && r.1 == s.selectedTier && r.2 == s.customizations
  {
    (s.product, s.selectedTier, s.customizations)
  }

  /** Submitting puts a line with exactly the dialog's choices at the end of the cart, closes the dialog and opens the cart. */
  lemma SubmitReachesCart(app: Store.AppState, s: ModalState, now: int)
    ensures var (p, t, c) := Submit(s);
      var r := Store.HandleAddToCart(app, p, t, c, now);
      && |r.cart| == |app.cart| + 1
      && r.cart[|app.cart|].product == s.product
      && r.cart[|app.cart|].selectedTier == s.selectedTier
      && r.cart[|app.cart|].customizations == s.customizations
      && r.selectedProduct.None? && r.cartOpen
  {
  }

  /** Every seed product opens with all three lists on "Surtidos", a blank message, and exactly one tier radio checked. */
  lemma SeedProductsOpen(i: int)
    requires 0 <= i < |Constants.InitialProducts|
    ensures var r := OpenModal(Constants.InitialProducts[i], Constants.InitialCustomizationOptions);
      && r.Some? && Valid(r.value)
      && r.value.customizations == Customizations("Surtidos", "Surtidos", "Surtidos", "")
      && DistinctQuantities(r.value.product.info.priceTiers)
  {
    Constants.SeedPricing();
    Constants.SeedOptions();
    var options := Constants.InitialCustomizationOptions;
    assert Constants.ValidOptionList(options.Get(Flavors));
    assert Constants.ValidOptionList(options.Get(Fillings));
    assert Constants.ValidOptionList(options.Get(Colors));
    assert Constants.WellPriced(Constants.InitialProducts[i].info);
  }
}

=== FILE: ordered_map.dfy ===
/**
 * The JavaScript `Map` as the dashboard uses it: an association list kept
 * in insertion order. `set` on a present key replaces its value in place,
 * on a new key it appends; `entries()` lists the pairs in that order.
 */
module OrderedMap {
  import opened Base

  type Entries<K, V> = seq<(K, V)>

  /** The keys, in insertion order. */
  function Keys<K, V>(m: Entries<K, V>): seq<K> {
    if |m| == 0 then [] else [m[0].0] + Keys(m[1..])
  }

  /** Keys are read position by position. */
  lemma {:induction false} KeysAt<K, V>(m: Entries<K, V>)
    ensures |Keys(m)| == |m|
    ensures forall i :: 0 <= i < |m| ==> Keys(m)[i] == m[i].0
  {
    if |m| > 0 {
      KeysAt(m[1..]);
      assert forall i :: 0 < i < |m| ==> m[i] == m[1..][i - 1];
    }
  }

  /** What a JavaScript `Map` always satisfies: no key occurs twice. */
  predicate DistinctKeys<K(==), V>(m: Entries<K, V>) {
    forall i, j :: 0 <= i < j < |m| ==> m[i].0 != m[j].0
  }

  /** `map.get(k)`. */
  function Get<K(==), V>(m: Entries<K, V>, k: K): (r: Option<V>)
    ensures r.Some? <==> k in Keys(m)
  {
    if |m| == 0 then None
    else if m[0].0 == k then Some(m[0].1)
    else Get(m[1..], k)
  }

  function Put<K(==), V>(m: Entries<K, V>, k: K, v: V): Entries<K, V> {
    if |m| == 0 then [(k, v)]
    else if m[0].0 == k then [(k, v)] + m[1..]
    else [m[0]] + Put(m[1..], k, v)
  }

  lemma {:induction false} PutFacts<K(!new), V>(m: Entries<K, V>, k: K, v: V)
    ensures Get(Put(m, k, v), k) == Some(v)
    ensures forall k' :: k' != k ==> Get(Put(m, k, v), k') == Get(m, k')
    ensures k in Keys(m) ==> Keys(Put(m, k, v)) == Keys(m)
    ensures k !in Keys(m) ==> Keys(Put(m, k, v)) == Keys(m) + [k]
  {
    var r := Put(m, k, v);
    if |m| == 0 {
      assert Keys(r) == [k];
    } else if m[0].0 == k {
      assert r[1..] == m[1..];
    } else {
      PutFacts(m[1..], k, v);
      var t := Put(m[1..], k, v);
      assert r[1..] == t;
    }
  }

  /** `map.set(k, v)`: replaced in place when present, appended when new. */
  function Set<K(==, !new), V>(m: Entries<K, V>, k: K, v: V): (r: Entries<K, V>)
    ensures Get(r, k) == Some(v)
    ensures forall k' :: k' != k ==> Get(r, k') == Get(m, k')
    ensures k in Keys(m) ==> Keys(r) == Keys(m)
    ensures k !in Keys(m) ==> Keys(r) == Keys(m) + [k]
  {
    PutFacts(m, k, v);
    Put(m, k, v)
  }

  /** Setting keeps the keys distinct. */
  lemma SetKeepsDistinct<K(!new), V>(m: Entries<K, V>, k: K, v: V)
    requires DistinctKeys(m)
    ensures DistinctKeys(Set(m, k, v))
  {
    var r := Set(m, k, v);
    var kr, km := Keys(r), Keys(m);
    KeysAt(r);
    KeysAt(m);
    forall i, j | 0 <= i < j < |r|
      ensures r[i].0 != r[j].0
    {
      if k in km {
        assert kr[i] == km[i] && kr[j] == km[j];
      } else {
        assert kr == km + [k];
        if j < |m| {
          assert kr[i] == km[i] && kr[j] == km[j];
        } else {
          assert kr[j] == k && kr[i] == km[i];
        }
      }
    }
  }

  /** `map.get(k) || 0` on a map of numbers. */
  function GetOrZero<K(==)>(m: Entries<K, int>, k: K): (r: int)
    ensures k !in Keys(m) ==> r == 0
  {
    match Get(m, k)
    case None => 0
    case Some(v) => v
  }

  /** `map.set(k, (map.get(k) || 0) + delta)`. */
  function AddTo<K(==, !new)>(m: Entries<K, int>, k: K, delta: int): (r: Entries<K, int>)
    ensures GetOrZero(r, k) == GetOrZero(m, k) + delta
    ensures forall k' :: k' != k ==> GetOrZero(r, k') == GetOrZero(m, k')
    ensures k in Keys(r)
    ensures k in Keys(m) ==> Keys(r) == Keys(m)
    ensures k !in Keys(m) ==> Keys(r) == Keys(m) + [k]
  {
    Set(m, k, GetOrZero(m, k) + delta)
  }

  /** The sum of the values. */
  function SumValues<K>(m: Entries<K, int>): int {
    if |m| == 0 then 0 else m[0].1 + SumValues(m[1..])
  }

  /** Setting a key replaces its old value (0 when absent) in the sum of the values. */
  lemma {:induction false} SetSum<K(!new)>(m: Entries<K, int>, k: K, v: int)
    ensures SumValues(Set(m, k, v)) == SumValues(m) - GetOrZero(m, k) + v
  {
    if |m| == 0 {
      assert SumValues([(k, v)]) == v + SumValues([(k, v)][1..]);
    } else if m[0].0 == k {
      var r := [(k, v)] + m[1..];
      assert r[1..] == m[1..];
    } else {
      SetSum(m[1..], k, v);
      var r := [m[0]] + Set(m[1..], k, v);
      assert r[1..] == Set(m[1..], k, v);
      assert GetOrZero(m, k) == GetOrZero(m[1..], k);
    }
  }

  /** Adding `delta` to one key adds `delta` to the sum of the values. */
  lemma AddToSum<K(!new)>(m: Entries<K, int>, k: K, delta: int)
    ensures SumValues(AddTo(m, k, delta)) == SumValues(m) + delta
  {
    var v := GetOrZero(m, k) + delta;
    var a := AddTo(m, k, delta);
    assert a == Set(m, k, v);
    SetSum(m, k, v);
  }

  /** In a map with distinct keys, the entry at a position is what `get` returns for its key. */
  lemma {:induction false} GetAt<K(!new), V>(m: Entries<K, V>, i: int)
    requires DistinctKeys(m) && 0 <= i < |m|
    ensures Get(m, m[i].0) == Some(m[i].1)
  {
    if i > 0 {
      assert m[0].0 != m[i].0;
      assert DistinctKeys(m[1..]) by {
        forall a, b | 0 <= a < b < |m| - 1
          ensures m[1..][a].0 != m[1..][b].0
        {
          assert m[1..][a] == m[a + 1] && m[1..][b] == m[b + 1];
        }
      }
      GetAt(m[1..], i - 1);
      assert m[1..][i - 1] == m[i];
    }
  }
}

=== FILE: pricing.dfy ===
/**
 * The pricing of the cart sidebar (components/CartSidebar.tsx): subtotal,
 * the flat delivery fee, the total, the amount paid online under full or
 * half payment and the confirmation hand-off.
 *
 * Money is an integer number of pesos. The half split is a `real`, because
 * the source divides a JavaScript number by two; for even totals it is whole.
 */
module Pricing {
  import opened Base
  import opened Types

  /** The single delivery fee every screen reads. */
  const DeliveryShippingCost: int := 5000

  function ShippingCost(d: DeliveryType): (r: int)
    ensures d == Delivery ==> r == DeliveryShippingCost
    ensures d == Pickup ==> r == 0
  {
    if d == Delivery then DeliveryShippingCost else 0
  }

  function TierPrice(item: CartItem): int {
    item.selectedTier.price
  }

  predicate NonNegativePrices(cart: seq<CartItem>) {
    forall i :: 0 <= i < |cart| ==> cart[i].selectedTier.price >= 0
  }

  /** The sum of the selected tier prices; the product's own `price` plays no part. */
  function Subtotal(cart: seq<CartItem>): (r: int)
    ensures |cart| == 0 ==> r == 0
    ensures NonNegativePrices(cart) ==> r >= 0
  {
    SumBy(cart, TierPrice)
  }

  /** Appending a line raises the subtotal by exactly that line's tier price. */
  lemma SubtotalAppend(cart: seq<CartItem>, item: CartItem)
    ensures Subtotal(cart + [item]) == Subtotal(cart) + item.selectedTier.price
  {
    SumByAppend(cart, [item], TierPrice);
  }

  /** The `reduce` of the sidebar, run left to right over the cart. */
  method ComputeSubtotal(cart: seq<CartItem>) returns (total: int)
    ensures total == Subtotal(cart)
  {
    total := 0;
    var i := 0;
    while i < |cart|
      invariant 0 <= i <= |cart|
      invariant total == Subtotal(cart[..i])
    {
      SubtotalAppend(cart[..i], cart[i]);
      assert cart[..i + 1] == cart[..i] + [cart[i]];
      total := total + cart[i].selectedTier.price;
      i := i + 1;
    }
    assert cart[..|cart|] == cart;
  }

  /**
   * The amount the order costs: the subtotal for a pickup, the subtotal plus
   * the delivery fee otherwise; an empty cart still owes the fee.
   */
  function Total(cart: seq<CartItem>, d: DeliveryType): (r: int)
    ensures d == Pickup ==> r == Subtotal(cart)
    ensures d == Delivery ==> r == Subtotal(cart) + DeliveryShippingCost
    ensures |cart| == 0 ==> r == ShippingCost(d)
    ensures NonNegativePrices(cart) ==> r >= ShippingCost(d)
  {
    Subtotal(cart) + ShippingCost(d)
  }

  /** Adding a line raises the total by exactly that line's tier price, whatever the delivery. */
  lemma TotalAppend(cart: seq<CartItem>, item: CartItem, d: DeliveryType)
    ensures Total(cart + [item], d) == Total(cart, d) + item.selectedTier.price
  {
    SubtotalAppend(cart, item);
  }

  /** Pickup costs the subtotal; delivery costs the subtotal plus the 5000 fee. */
  lemma TotalByDelivery(cart: seq<CartItem>)
    ensures Total(cart, Pickup) == Subtotal(cart)
    ensures Total(cart, Delivery) == Subtotal(cart) + 5000
    ensures Total(cart, Delivery) - Total(cart, Pickup) == DeliveryShippingCost
  {
  }

  /** The amount charged online: everything under full payment, half of it under half payment. */
  function AmountToPayOnline(total: int, m: PaymentMethod): (r: real)
    ensures m == Full ==> r == total as real
    ensures m == Half ==> r + r == total as real
  {
    if m == Full then total as real else total as real / 2.0
  }

  /** The amount left for the moment of delivery: half under half payment, nothing otherwise. */
  function PendingAmount(total: int, m: PaymentMethod): (r: real)
    ensures m == Full ==> r == 0.0
    ensures m == Half ==> r + r == total as real
  {
    if m == Half then total as real / 2.0 else 0.0
  }

  /** The online and pending amounts always add up to the total, and under half payment they are equal. */
  lemma SplitIsExact(total: int, m: PaymentMethod)
    ensures AmountToPayOnline(total, m) + PendingAmount(total, m) == total as real
    ensures m == Half ==> AmountToPayOnline(total, m) == PendingAmount(total, m)
  {
  }

  /** With non-negative prices the online amount lies between nothing and the whole total. */
  lemma OnlineAmountBounded(cart: seq<CartItem>, d: DeliveryType, m: PaymentMethod)
    requires NonNegativePrices(cart)
    ensures 0.0 <= AmountToPayOnline(Total(cart, d), m) <= Total(cart, d) as real
  {
  }

  /** When every tier price is a multiple of 500 the total is even, so half of it is a whole amount. */
  lemma HalfSplitIsWhole(cart: seq<CartItem>, d: DeliveryType)
    requires forall i :: 0 <= i < |cart| ==> cart[i].selectedTier.price % 500 == 0
    ensures Total(cart, d) % 2 == 0
    ensures AmountToPayOnline(Total(cart, d), Half) == (Total(cart, d) / 2) as real
  {
    SumByMultipleOf500(cart, TierPrice);
    var k := Subtotal(cart) / 500;
    assert Subtotal(cart) == 500 * k;
    var n := if d == Delivery then k + 10 else k;
    assert Total(cart, d) == 500 * n;
    EvenHalf(n);
  }

  /** Any multiple of 500 is even, and halving it as a real gives a whole amount. */
  lemma EvenHalf(n: int)
    ensures (500 * n) % 2 == 0
    ensures (500 * n) as real / 2.0 == ((500 * n) / 2) as real
  {
    assert 500 * n == 2 * (250 * n);
    assert (500 * n) / 2 == 250 * n;
  }

  /** What the confirm button hands to the order flow. */
  datatype OrderRequest = OrderRequest(items: seq<CartItem>, total: int)

  /** Confirming passes the cart unchanged together with the computed total. */
  function ConfirmOrder(cart: seq<CartItem>, d: DeliveryType): (r: OrderRequest)
    ensures r.items == cart
    ensures r.total == Subtotal(cart) + ShippingCost(d)
  {
    OrderRequest(cart, Total(cart, d))
  }

  /** Whether the sidebar shows the item-count badge next to its title. */
  function SidebarBadgeShown(cart: seq<CartItem>): (r: bool)
    ensures r <==> cart != []
  {
    |cart| > 0
  }
}

=== FILE: store.dfy ===
/**
 * The application root (App.tsx): the session id generator, the cart store,
 * the product catalog store edited by the admin panel, the featured-product
 * view, the hash router and the overlay flags.
 *
 * `Date.now()` and `window.location.hash` are parameters; React's state
 * setters become functions from the old state to the new one.
 */
module Store {
  import opened Base
  import opened Text
  import opened Types
  import Constants
  import Pricing

  // ---------------------------------------------------------------------------
  // Id generator

  /** `reduce((max, p) => Math.max(max, p.id), 0)`: the largest id, or 0 when none is larger. */
  function MaxId(products: seq<Product>): (r: int)
    ensures r >= 0
    ensures IdsAtMost(products, r)
    ensures r == 0 || HasId(products, r)
  {
    if |products| == 0 then 0
    else
      var m := MaxId(products[..|products| - 1]);
      var x := products[|products| - 1].id;
      assert forall i :: 0 <= i < |products| - 1 ==> products[i] == products[..|products| - 1][i];
      if x > m then x else m
  }

  /** `++lastId`: the issued id and the new counter value, which remembers it. */
  function GenerateUniqueId(lastId: int): (r: (int, int))
    ensures r.0 > lastId
    ensures r.1 == r.0
  {
    (lastId + 1, lastId + 1)
  }

  /** The ids issued by `n` successive calls, and the counter afterwards. */
  function GenerateIds(lastId: int, n: nat): (r: (seq<int>, int))
    ensures |r.0| == n
    ensures forall i :: 0 <= i < n ==> lastId < r.0[i] <= r.1
    ensures forall i, j :: 0 <= i < j < n ==> r.0[i] < r.0[j]
    ensures r.1 >= lastId
    decreases n
  {
    if n == 0 then ([], lastId)
    else
      var (id, next) := GenerateUniqueId(lastId);
      var (rest, last) := GenerateIds(next, n - 1);
      ([id] + rest, last)
  }

  /** Every generated id is above every seed id and above every id generated before it. */
  lemma GeneratedIdsAreFresh(n: nat)
    ensures var ids := GenerateIds(MaxId(Constants.InitialProducts), n).0;
      && (forall i, j :: 0 <= i < n && 0 <= j < |Constants.InitialProducts| ==> ids[i] > Constants.InitialProducts[j].id)
      && (forall i, j :: 0 <= i < j < n ==> ids[i] < ids[j])
  {
  }

  /** The generator starts from 27, the largest seed id. */
  lemma InitialCounter()
    ensures MaxId(Constants.InitialProducts) == Constants.MaxSeedId
  {
    Constants.SeedIds();
  }

  // ---------------------------------------------------------------------------
  // Cart store

  /**
   * The cart line id `${product.id}-${selectedTier.quantity}-${Date.now()}`:
   * it opens with the product's id and a hyphen and closes with a hyphen and
   * the creation instant.
   */
  function CartItemId(productId: int, quantity: int, now: int): (r: string)
    ensures var p := IntToDecimal(productId); |p| < |r| && r[..|p| + 1] == p + "-"
    ensures var n := IntToDecimal(now); |n| < |r| && r[|r| - |n| - 1..] == "-" + n
  {
    var p := IntToDecimal(productId);
    var n := IntToDecimal(now);
    var r := p + "-" + IntToDecimal(quantity) + "-" + n;
    assert r == (p + "-") + (IntToDecimal(quantity) + "-" + n);
    assert r == (p + "-" + IntToDecimal(quantity)) + ("-" + n);
    r
  }

  /** Two lines for the same product and tier created at different instants get different ids. */
  lemma CartItemIdsDifferInTime(productId: int, quantity: int, t1: int, t2: int)
    requires t1 != t2
    ensures CartItemId(productId, quantity, t1) != CartItemId(productId, quantity, t2)
  {
    var prefix := IntToDecimal(productId) + "-" + IntToDecimal(quantity) + "-";
    if CartItemId(productId, quantity, t1) == CartItemId(productId, quantity, t2) {
      assert CartItemId(productId, quantity, t1) == prefix + IntToDecimal(t1);
      assert CartItemId(productId, quantity, t2) == prefix + IntToDecimal(t2);
      assert IntToDecimal(t1) == CartItemId(productId, quantity, t1)[|prefix|..];
      assert IntToDecimal(t2) == CartItemId(productId, quantity, t2)[|prefix|..];
      IntToDecimalInjective(t1, t2);
    }
  }

  /** The line `handleAddToCart` builds; it carries no sub-product selection. */
  function NewCartItem(product: Product, tier: Tier, customizations: Customizations, now: int): CartItem {
    CartItem(CartItemId(product.id, tier.quantity, now), product, tier, customizations, None)
  }

  /** Appends exactly one line at the end; the earlier lines are untouched and keep their order. */
  function AddToCart(cart: seq<CartItem>, product: Product, tier: Tier, customizations: Customizations, now: int): (r: seq<CartItem>)
    ensures |r| == |cart| + 1
    ensures r[..|cart|] == cart
    ensures r[|cart|].product == product && r[|cart|].selectedTier == tier && r[|cart|].customizations == customizations
    ensures r[|cart|].id == CartItemId(product.id, tier.quantity, now)
  {
    cart + [NewCartItem(product, tier, customizations, now)]
  }

  function OtherId(id: string): CartItem -> bool {
    (item: CartItem) => item.id != id
  }

  function SameId(id: string): CartItem -> bool {
    (item: CartItem) => item.id == id
  }

  predicate CartHasId(cart: seq<CartItem>, id: string) {
    exists i :: 0 <= i < |cart| && cart[i].id == id
  }

  /** `filter(item => item.id !== itemId)`: every line with that id goes, the rest stay in order. */
  function RemoveFromCart(cart: seq<CartItem>, id: string): (r: seq<CartItem>)
    ensures forall i :: 0 <= i < |r| ==> r[i].id != id && r[i] in cart
    ensures forall i :: 0 <= i < |cart| && cart[i].id != id ==> cart[i] in r
    ensures !CartHasId(cart, id) ==> r == cart
    ensures CartHasId(cart, id) ==> |r| < |cart|
  {
    RemoveFacts(cart, id);
    Filter(cart, OtherId(id))
  }

  lemma RemoveFacts(cart: seq<CartItem>, id: string)
    ensures !CartHasId(cart, id) ==> Filter(cart, OtherId(id)) == cart
    ensures CartHasId(cart, id) ==> |Filter(cart, OtherId(id))| < |cart|
  {
    if !CartHasId(cart, id) {
      FilterAll(cart, OtherId(id));
    } else {
      var i :| 0 <= i < |cart| && cart[i].id == id;
      RemovingShrinks(cart, id, i);
    }
  }

  lemma {:induction false} RemovingShrinks(cart: seq<CartItem>, id: string, i: int)
    requires 0 <= i < |cart| && cart[i].id == id
    ensures |Filter(cart, OtherId(id))| < |cart|
  {
    if i > 0 {
      RemovingShrinks(cart[1..], id, i - 1);
    }
  }

  /** Removing an id acts on each part of a split cart separately, so the order of what remains is kept. */
  lemma RemoveFromConcatenation(a: seq<CartItem>, b: seq<CartItem>, id: string)
    ensures RemoveFromCart(a + b, id) == RemoveFromCart(a, id) + RemoveFromCart(b, id)
  {
    FilterAppend(a, b, OtherId(id));
  }

  /** Adding a line whose id is new and then removing that id gives back the cart. */
  lemma AddThenRemove(cart: seq<CartItem>, product: Product, tier: Tier, customizations: Customizations, now: int)
    requires !CartHasId(cart, CartItemId(product.id, tier.quantity, now))
    ensures RemoveFromCart(AddToCart(cart, product, tier, customizations, now), CartItemId(product.id, tier.quantity, now)) == cart
  {
    var item := NewCartItem(product, tier, customizations, now);
    RemoveFromConcatenation(cart, [item], item.id);
    assert Filter([item], OtherId(item.id)) == [];
  }

  /** Removal splits the subtotal: what stays plus what was removed is the whole. */
  lemma RemoveSplitsSubtotal(cart: seq<CartItem>, id: string)
    ensures Pricing.Subtotal(cart) == Pricing.Subtotal(RemoveFromCart(cart, id)) + Pricing.Subtotal(Filter(cart, SameId(id)))
  {
    SumByPartition(cart, Pricing.TierPrice, OtherId(id), SameId(id));
  }

  function TierQuantity(item: CartItem): int {
    item.selectedTier.quantity
  }

  /** The header badge count: the sum of the tier quantities, 0 for an empty cart. */
  function CartItemCount(cart: seq<CartItem>): (r: int)
    ensures |cart| == 0 ==> r == 0
    ensures (forall i :: 0 <= i < |cart| ==> cart[i].selectedTier.quantity >= 0) ==> r >= 0
  {
    SumBy(cart, TierQuantity)
  }

  /** Adding a line raises the count by its tier's quantity, not by one. */
  lemma CountAfterAdd(cart: seq<CartItem>, product: Product, tier: Tier, customizations: Customizations, now: int)
    ensures CartItemCount(AddToCart(cart, product, tier, customizations, now)) == CartItemCount(cart) + tier.quantity
  {
    SumByAppend(cart, [NewCartItem(product, tier, customizations, now)], TierQuantity);
  }

  // ---------------------------------------------------------------------------
  // Catalog store

  /** `products.filter(p => p.isFeatured)`. */
  function FeaturedProducts(products: seq<Product>): (r: seq<Product>)
    ensures forall i :: 0 <= i < |r| ==> IsFeatured(r[i]) && r[i] in products
    ensures forall i :: 0 <= i < |products| && IsFeatured(products[i]) ==> products[i] in r
  {
    Filter(products, IsFeatured)
  }

  /** The featured view of a concatenation is the concatenation of the featured views. */
  lemma FeaturedOfConcatenation(a: seq<Product>, b: seq<Product>)
    ensures FeaturedProducts(a + b) == FeaturedProducts(a) + FeaturedProducts(b)
  {
    FilterAppend(a, b, IsFeatured);
  }

  /** The catalog invariant: ids are distinct and none exceeds the generator's counter. */
  predicate CatalogInvariant(products: seq<Product>, lastId: int) {
    DistinctIds(products) && IdsAtMost(products, lastId)
  }

  /** `handleAddProduct`: the new product, with a freshly generated id, goes at the end. */
  function AddProduct(products: seq<Product>, lastId: int, info: ProductInfo): (r: (seq<Product>, int))
    ensures r.1 > lastId
    ensures r.0 == products + [Product(r.1, info)]
  {
    var (id, next) := GenerateUniqueId(lastId);
    (products + [Product(id, info)], next)
  }

  /** Adding a product keeps the ids distinct and below the counter. */
  lemma AddProductKeepsInvariant(products: seq<Product>, lastId: int, info: ProductInfo)
    requires CatalogInvariant(products, lastId)
    ensures var (ps, last) := AddProduct(products, lastId, info); CatalogInvariant(ps, last)
  {
  }

  /** `handleUpdateProduct`: every product with the same id is replaced, all else keeps its place. */
  function UpdateProduct(products: seq<Product>, updated: Product): (r: seq<Product>)
    ensures |r| == |products|
    ensures forall i :: 0 <= i < |products| ==> r[i] == (if products[i].id == updated.id then updated else products[i])
  {
    if |products| == 0 then []
    else [if products[0].id == updated.id then updated else products[0]] + UpdateProduct(products[1..], updated)
  }

  /** Updating never changes the list of ids, so it keeps the catalog invariant; and a second update is a no-op. */
  lemma UpdateProductKeepsInvariant(products: seq<Product>, lastId: int, updated: Product)
    requires CatalogInvariant(products, lastId)
    ensures CatalogInvariant(UpdateProduct(products, updated), lastId)
    ensures forall i :: 0 <= i < |products| ==> UpdateProduct(products, updated)[i].id == products[i].id
    ensures UpdateProduct(UpdateProduct(products, updated), updated) == UpdateProduct(products, updated)
  {
  }

  function OtherProductId(id: int): Product -> bool {
    (p: Product) => p.id != id
  }

  /** `handleDeleteProduct`: the product with that id goes; the others keep their order. */
  function DeleteProduct(products: seq<Product>, id: int): (r: seq<Product>)
    ensures !HasId(r, id)
    ensures forall i :: 0 <= i < |r| ==> r[i] in products
    ensures forall i :: 0 <= i < |products| && products[i].id != id ==> products[i] in r
    ensures !HasId(products, id) ==> r == products
    ensures |r| <= |products|
    ensures forall p :: multiset(r)[p] == if p.id == id then 0 else multiset(products)[p]
  {
    DeleteFacts(products, id);
    Filter(products, OtherProductId(id))
  }

  lemma DeleteFacts(products: seq<Product>, id: int)
    ensures !HasId(products, id) ==> Filter(products, OtherProductId(id)) == products
    ensures forall p :: multiset(Filter(products, OtherProductId(id)))[p] == if p.id == id then 0 else multiset(products)[p]
  {
    FilterCopies(products, OtherProductId(id));
    if !HasId(products, id) {
      FilterAll(products, OtherProductId(id));
    }
  }

  /** Deleting acts on each part of a split catalog separately, so the order of what remains is kept. */
  lemma DeleteFromConcatenation(a: seq<Product>, b: seq<Product>, id: int)
    ensures DeleteProduct(a + b, id) == DeleteProduct(a, id) + DeleteProduct(b, id)
  {
    FilterAppend(a, b, OtherProductId(id));
  }

  /** On a single product, deleting drops it exactly when it carries the id. */
  lemma DeleteOne(p: Product, id: int)
    ensures DeleteProduct([p], id) == if p.id == id then [] else [p]
  {
    assert [p][1..] == [];
  }

  /** Deleting keeps the catalog invariant. */
  lemma DeleteProductKeepsInvariant(products: seq<Product>, lastId: int, id: int)
    requires CatalogInvariant(products, lastId)
    ensures CatalogInvariant(DeleteProduct(products, id), lastId)
  {
    var r := DeleteProduct(products, id);
    SubsequenceKeepsDistinct(products, OtherProductId(id));
  }

  lemma {:induction false} SubsequenceKeepsDistinct(products: seq<Product>, p: Product -> bool)
    requires DistinctIds(products)
    ensures DistinctIds(Filter(products, p))
  {
    if |products| > 0 {
      SubsequenceKeepsDistinct(products[1..], p);
      assert DistinctIds(products[1..]) by {
        forall i, j | 0 <= i < j < |products| - 1
          ensures products[1..][i].id != products[1..][j].id
        {
          assert products[1..][i] == products[i + 1] && products[1..][j] == products[j + 1];
        }
      }
      var rest := Filter(products[1..], p);
      forall k | 0 <= k < |rest|
        ensures rest[k].id != products[0].id
      {
        var j :| 0 <= j < |products[1..]| && products[1..][j] == rest[k];
        assert products[j + 1] == rest[k];
      }
    }
  }

  /** Adding a product and deleting its fresh id gives back the catalog. */
  lemma AddThenDeleteProduct(products: seq<Product>, lastId: int, info: ProductInfo)
    requires CatalogInvariant(products, lastId)
    ensures var (ps, last) := AddProduct(products, lastId, info); DeleteProduct(ps, last) == products
  {
    var (ps, last) := AddProduct(products, lastId, info);
    FilterAppend(products, [Product(last, info)], OtherProductId(last));
    FilterAll(products, OtherProductId(last));
    assert Filter([Product(last, info)], OtherProductId(last)) == [];
  }

  // ---------------------------------------------------------------------------
  // Routing and the application state

  datatype Page = HomePage | CatalogPage | ContactPage | AdminPage

  /** `window.location.hash || '#'`. */
  function PageFromHash(hash: string): (r: string)
    ensures r != ""
    ensures hash != "" ==> r == hash
  {
    if hash == "" then "#" else hash
  }

  /** The `renderPage` switch: three named routes, everything else is the home page. */
  function RenderPage(page: string): (r: Page)
    ensures r == CatalogPage <==> page == "#catalog"
    ensures r == ContactPage <==> page == "#contact"
    ensures r == AdminPage <==> page == "#admin"
    ensures r == HomePage <==> page !in {"#catalog", "#contact", "#admin"}
  {
    if page == "#catalog" then CatalogPage
    else if page == "#contact" then ContactPage
    else if page == "#admin" then AdminPage
    else HomePage
  }

  datatype AppState = AppState(
    products: seq<Product>,
    options: CustomizationCollection,
    selectedProduct: Option<Product>,
    cartOpen: bool,
    menuOpen: bool,
    cart: seq<CartItem>,
    page: string,
    lastId: int)

  /** The state on load: the seed catalog and options, an empty cart, nothing open. */
  function InitialState(hash: string): (s: AppState)
    ensures s.products == Constants.InitialProducts && s.cart == []
    ensures CatalogInvariant(s.products, s.lastId)
  {
    InitialCounter();
    Constants.SeedIds();
    AppState(Constants.InitialProducts, Constants.InitialCustomizationOptions, None, false, false, [], PageFromHash(hash), MaxId(Constants.InitialProducts))
  }

  /** The `hashchange` handler: follow the hash and close the mobile menu. */
  function OnHashChange(s: AppState, hash: string): (r: AppState)
    ensures r.page == PageFromHash(hash) && !r.menuOpen
    ensures r.products == s.products && r.cart == s.cart && r.lastId == s.lastId
  {
    s.(page := PageFromHash(hash), menuOpen := false)
  }

  /** The body-scroll lock is on while any overlay is open. */
  function ScrollLocked(s: AppState): (r: bool)
    ensures r <==> s.cartOpen || s.selectedProduct.Some? || s.menuOpen
  {
    s.cartOpen || s.selectedProduct.Some? || s.menuOpen
  }

  /** `handleAddToCart`: append the line, close the product modal, open the cart. */
  function HandleAddToCart(s: AppState, product: Product, tier: Tier, customizations: Customizations, now: int): (r: AppState)
    ensures r.cart == AddToCart(s.cart, product, tier, customizations, now)
    ensures r.selectedProduct == None && r.cartOpen
    ensures r.products == s.products && r.lastId == s.lastId
  {
    s.(cart := AddToCart(s.cart, product, tier, customizations, now), selectedProduct := None, cartOpen := true)
  }

  /** The admin-panel handlers, applied to the whole state. */
  datatype CatalogAction = AddAction(info: ProductInfo) | UpdateAction(product: Product) | DeleteAction(id: int)

  function ApplyCatalogAction(s: AppState, a: CatalogAction): (r: AppState)
    ensures r.cart == s.cart && r.options == s.options
    ensures r.lastId >= s.lastId
  {
    match a
    case AddAction(info) =>
      var (ps, last) := AddProduct(s.products, s.lastId, info);
      s.(products := ps, lastId := last)
    case UpdateAction(p) => s.(products := UpdateProduct(s.products, p))
    case DeleteAction(id) => s.(products := DeleteProduct(s.products, id))
  }

  /** Every admin action keeps the catalog invariant, so ids stay pairwise distinct for the whole session. */
  lemma CatalogActionsKeepInvariant(s: AppState, a: CatalogAction)
    requires CatalogInvariant(s.products, s.lastId)
    ensures CatalogInvariant(ApplyCatalogAction(s, a).products, ApplyCatalogAction(s, a).lastId)
  {
    match a
    case AddAction(info) => AddProductKeepsInvariant(s.products, s.lastId, info);
    case UpdateAction(p) => UpdateProductKeepsInvariant(s.products, s.lastId, p);
    case DeleteAction(id) => DeleteProductKeepsInvariant(s.products, s.lastId, id);
  }
}

=== FILE: text.dfy ===
/**
 * The string operations the storefront delegates to the JavaScript runtime
 * and that carry logic worth stating: the whitespace class shared by
 * `String.prototype.trim` and the regular-expression class `\s`, trimming,
 * whitespace replacement, `Array.prototype.join` and the decimal rendering
 * of an integer by template-literal interpolation.
 */
module Text {

  /**
   * The ECMAScript white-space and line-terminator code points, which is the
   * set both `trim()` removes and `\s` matches.
   */
  predicate IsWhitespace(c: char) {
    var n := c as int;
    n == 0x09 || n == 0x0A || n == 0x0B || n == 0x0C || n == 0x0D || n == 0x20
    || n == 0xA0 || n == 0x1680 || (0x2000 <= n <= 0x200A) || n == 0x2028 || n == 0x2029
    || n == 0x202F || n == 0x205F || n == 0x3000 || n == 0xFEFF
  }

  predicate AllWhitespace(s: string) {
    forall i :: 0 <= i < |s| ==> IsWhitespace(s[i])
  }

  /** Drops the leading white space. */
  function TrimStart(s: string): (r: string)
    ensures |r| <= |s| && r == s[|s| - |r|..]
    ensures AllWhitespace(s[..|s| - |r|])
    ensures |r| > 0 ==> !IsWhitespace(r[0])
  {
    if |s| > 0 && IsWhitespace(s[0]) then TrimStart(s[1..]) else s
  }

  /** Drops the trailing white space. */
  function TrimEnd(s: string): (r: string)
    ensures |r| <= |s| && r == s[..|r|]
    ensures AllWhitespace(s[|r|..])
    ensures |r| > 0 ==> !IsWhitespace(r[|r| - 1])
  {
    if |s| > 0 && IsWhitespace(s[|s| - 1]) then TrimEnd(s[..|s| - 1]) else s
  }

  /**
   * String.prototype.trim: the middle of `s` left once the white space at
   * both ends is removed; it is empty exactly when `s` is blank.
   */
  function Trim(s: string): (r: string)
    ensures |r| <= |s|
    ensures |r| > 0 ==> !IsWhitespace(r[0]) && !IsWhitespace(r[|r| - 1])
    ensures |r| == 0 <==> AllWhitespace(s)
    ensures BetweenBlanks(r, s)
  {
    TrimBlank(s);
    TrimSlice(s);
    TrimEnd(TrimStart(s))
  }

  /** `r` is a slice of `s` with only white space before it and after it. */
  ghost predicate BetweenBlanks(r: string, s: string) {
    exists a :: 0 <= a <= |s| - |r| && r == s[a..a + |r|] && AllWhitespace(s[..a]) && AllWhitespace(s[a + |r|..])
  }

  /** The trimmed text sits in `s` between a blank prefix and a blank suffix. */
  lemma TrimSlice(s: string)
    ensures BetweenBlanks(TrimEnd(TrimStart(s)), s)
  {
    BlankEnds(s, TrimStart(s), TrimEnd(TrimStart(s)));
  }

  /** Cutting a blank prefix and then a blank suffix leaves a slice between blanks. */
  lemma BlankEnds(s: string, t: string, r: string)
    requires |t| <= |s| && t == s[|s| - |t|..] && AllWhitespace(s[..|s| - |t|])
    requires |r| <= |t| && r == t[..|r|] && AllWhitespace(t[|r|..])
    ensures BetweenBlanks(r, s)
  {
    var a := |s| - |t|;
    SuffixSlices(s, a, |r|);
    assert 0 <= a <= |s| - |r| && r == s[a..a + |r|] && AllWhitespace(s[..a]) && AllWhitespace(s[a + |r|..]);
  }

  /** Slicing a suffix of `s` is slicing `s` itself, shifted by where the suffix starts. */
  lemma SuffixSlices(s: string, a: int, k: int)
    requires 0 <= a <= |s| && 0 <= k <= |s| - a
    ensures s[a..][..k] == s[a..a + k]
    ensures s[a..][k..] == s[a + k..]
  {
  }

  /** Trimming leaves nothing exactly when the input is blank. */
  lemma TrimBlank(s: string)
    ensures |TrimEnd(TrimStart(s))| == 0 <==> AllWhitespace(s)
  {
    var t := TrimStart(s);
    if |t| == 0 {
      assert s[..|s|] == s;
    } else {
      assert !IsWhitespace(t[0]);
      assert t[0] == s[|s| - |t|];
    }
  }

  /** Trimming twice changes nothing more. */
  lemma TrimIdempotent(s: string)
    ensures Trim(Trim(s)) == Trim(s)
  {
    var r := Trim(s);
    if |r| > 0 {
      assert TrimStart(r) == r;
      assert TrimEnd(r) == r;
    }
  }

  /** `s.replace(/\s/g, c)`: every white-space character becomes `c`, everything else stays in place. */
  function ReplaceWhitespace(s: string, c: char): (r: string)
    ensures |r| == |s|
    ensures forall i :: 0 <= i < |s| ==> r[i] == (if IsWhitespace(s[i]) then c else s[i])
  {
    if |s| == 0 then [] else [if IsWhitespace(s[0]) then c else s[0]] + ReplaceWhitespace(s[1..], c)
  }

  /** Array.prototype.join. */
  function Join(parts: seq<string>, sep: string): (r: string)
    ensures |parts| == 0 ==> r == ""
    ensures |parts| == 1 ==> r == parts[0]
    ensures |parts| > 0 ==> parts[0] <= r
  {
    if |parts| == 0 then ""
    else if |parts| == 1 then parts[0]
    else parts[0] + sep + Join(parts[1..], sep)
  }

  /** The joined string is as long as its parts plus one separator between each neighbouring pair. */
  lemma {:induction false} JoinLength(parts: seq<string>, sep: string)
    requires |parts| > 0
    ensures |Join(parts, sep)| == TotalLength(parts) + (|parts| - 1) * |sep|
  {
    if |parts| > 1 {
      JoinLength(parts[1..], sep);
    }
  }

  /** Joining one more part appends the separator and that part. */
  lemma {:induction false} JoinAppend(parts: seq<string>, x: string, sep: string)
    requires |parts| > 0
    ensures Join(parts + [x], sep) == Join(parts, sep) + sep + x
  {
    assert (parts + [x])[1..] == parts[1..] + [x];
    if |parts| > 1 {
      JoinAppend(parts[1..], x, sep);
    }
  }

  function TotalLength(parts: seq<string>): nat {
    if |parts| == 0 then 0 else |parts[0]| + TotalLength(parts[1..])
  }

  predicate IsDigit(c: char) {
    '0' <= c <= '9'
  }

  function DigitChar(d: nat): (c: char)
    requires d < 10
    ensures IsDigit(c)
  {
    ('0' as int + d) as char
  }

  /** The decimal digits of a natural number, most significant first, without leading zeros. */
  function NatToDecimal(n: nat): (r: string)
    ensures |r| >= 1
    ensures forall i :: 0 <= i < |r| ==> IsDigit(r[i])
    ensures |r| > 1 ==> r[0] != '0'
  {
    if n < 10 then [DigitChar(n)] else NatToDecimal(n / 10) + [DigitChar(n % 10)]
  }

  /** The template-literal rendering `${n}` of an integer. */
  function IntToDecimal(n: int): (r: string)
    ensures |r| >= 1
    ensures (r[0] == '-') <==> n < 0
    ensures forall i :: 0 < i < |r| ==> IsDigit(r[i])
  {
    if n < 0 then "-" + NatToDecimal(-n) else NatToDecimal(n)
  }

  /** Reads a string of decimal digits back as a number. */
  function ParseDecimal(s: string): int
    requires forall i :: 0 <= i < |s| ==> IsDigit(s[i])
  {
    if |s| == 0 then 0 else ParseDecimal(s[..|s| - 1]) * 10 + (s[|s| - 1] as int - '0' as int)
  }

  /** Rendering a natural number in decimal loses no information. */
  lemma {:induction false} DecimalRoundTrip(n: nat)
    ensures ParseDecimal(NatToDecimal(n)) == n
  {
    if n >= 10 {
      DecimalRoundTrip(n / 10);
      var r := NatToDecimal(n);
      assert r[..|r| - 1] == NatToDecimal(n / 10);
    }
  }

  /** Distinct integers render as distinct strings. */
  lemma IntToDecimalInjective(a: int, b: int)
    requires IntToDecimal(a) == IntToDecimal(b)
    ensures a == b
  {
    var r := IntToDecimal(a);
    if a < 0 {
      assert r[0] == '-';
      assert b < 0;
      assert r == "-" + NatToDecimal(-a) == "-" + NatToDecimal(-b);
      assert NatToDecimal(-a) == r[1..] == NatToDecimal(-b);
      DecimalRoundTrip(-a);
      DecimalRoundTrip(-b);
    } else {
      assert b >= 0;
      assert NatToDecimal(a) == r == NatToDecimal(b);
      DecimalRoundTrip(a);
      DecimalRoundTrip(b);
    }
  }
}

=== FILE: types.dfy ===
/**
 * The records of the storefront (types.ts), completed with the fields the
 * components use but the type file does not declare: the promotional-box
 * candidates of a product, the sub-product names of a cart line, the
 * analytics event, the order details and the user role.
 */
module Types {
  import opened Base

  datatype Category = Dulce | Salado | Promocion

  /** One purchasable quantity of a product at a fixed price (`label` is a Dafny keyword, hence `labelText`). */
  datatype Tier = Tier(quantity: int, price: int, labelText: string)

  /** The candidates of a build-your-own promotional box. */
  datatype SelectableProducts = SelectableProducts(maxSelections: int, productIds: seq<int>)

  /** Every field of a product except its identity (`Omit<Product, 'id'>`). */
  datatype ProductInfo = ProductInfo(
    name: string,
    description: string,
    longDescription: string,
    price: int,
    imageUrl: string,
    inStock: bool,
    category: Category,
    isFeatured: Option<bool>,
    priceTiers: seq<Tier>,
    selectableProducts: Option<SelectableProducts>)

  datatype Product = Product(id: int, info: ProductInfo)

  /** No two products of the list share an id. */
  predicate DistinctIds(ps: seq<Product>) {
    forall i, j :: 0 <= i < j < |ps| ==> ps[i].id != ps[j].id
  }

  /** Some product of the list has this id. */
  predicate HasId(ps: seq<Product>, id: int) {
    exists i :: 0 <= i < |ps| && ps[i].id == id
  }

  /** The first product of the list with this id, if any. */
  function FindProduct(ps: seq<Product>, id: int): (r: Option<Product>)
    ensures r.Some? <==> HasId(ps, id)
    ensures r.Some? ==> r.value in ps && r.value.id == id
  {
    if |ps| == 0 then None
    else if ps[0].id == id then Some(ps[0])
    else
      var r := FindProduct(ps[1..], id);
      assert HasId(ps, id) ==> HasId(ps[1..], id) by {
        if HasId(ps, id) {
          var i :| 0 <= i < |ps| && ps[i].id == id;
          assert ps[1..][i - 1] == ps[i];
        }
      }
      assert r.Some? ==> ps[1..][0..] == ps[1..];
      r
  }

  /** Every id of the list is at most `bound`. */
  predicate IdsAtMost(ps: seq<Product>, bound: int) {
    forall i :: 0 <= i < |ps| ==> ps[i].id <= bound
  }

  /** The `isFeatured?` flag read as JavaScript truthiness: absent means false. */
  predicate IsFeatured(p: Product) {
    p.info.isFeatured == Some(true)
  }

  /** Distinct tier quantities: at most one tier per quantity. */
  predicate DistinctQuantities(tiers: seq<Tier>) {
    forall k, l :: 0 <= k < l < |tiers| ==> tiers[k].quantity != tiers[l].quantity
  }

  datatype Customizations = Customizations(flavor: string, filling: string, color: string, message: string)

  datatype CustomizationField = Flavor | Filling | Color | Message

  /** One line of the cart: a tier of a product with its customizations. */
  datatype CartItem = CartItem(
    id: string,
    product: Product,
    selectedTier: Tier,
    customizations: Customizations,
    selectedSubProducts: Option<seq<string>>)

  /** The three option groups an administrator edits (`keyof CustomizationCollection`). */
  datatype OptionGroup = Flavors | Fillings | Colors

  /** A value per option group, read and written by key. */
  datatype PerGroup<T> = PerGroup(flavors: T, fillings: T, colors: T) {
    function Get(g: OptionGroup): T {
      match g
      case Flavors => flavors
      case Fillings => fillings
      case Colors => colors
    }

    /** `{...this, [g]: v}`: the entry for `g` is replaced and the other two are kept. */
    function Set(g: OptionGroup, v: T): (r: PerGroup<T>)
      ensures r.Get(g) == v
      ensures forall h :: h != g ==> r.Get(h) == Get(h)
    {
      match g
      case Flavors => this.(flavors := v)
      case Fillings => this.(fillings := v)
      case Colors => this.(colors := v)
    }
  }

  /** The global flavour, filling and colour lists, in display order. */
  type CustomizationCollection = PerGroup<seq<string>>

  datatype UserRole = Customer | Admin | SuperAdmin

  datatype DeliveryType = Pickup | Delivery

  datatype PaymentMethod = Full | Half

  datatype EventType = View | AddToCart | Order

  /**
   * An analytics event. `timestamp` is the event time as an integer instant;
   * `productId` is set on view and add-to-cart events, `total` and `items`
   * on orders; any of them may be missing.
   */
  datatype AnalyticsEvent = AnalyticsEvent(
    kind: EventType,
    timestamp: int,
    productId: Option<int>,
    total: Option<int>,
    items: Option<seq<CartItem>>)

  /** The snapshot shown on the confirmation page. */
  datatype OrderDetails = OrderDetails(
    customerName: string,
    customerPhone: string,
    deliveryType: DeliveryType,
    deliveryDate: string,
    specialInstructions: string,
    items: seq<CartItem>,
    subtotal: int,
    shippingCost: int,
    total: int)
}
